=== FILE: README.md ===
# Accessibility scanner: a Dafny model of the rule engine

This project models the page-side core of the Accessibility Tracker browser
extension as pure Dafny functions over an immutable page. It covers:

- `getUniqueSelector`, which gives each reported element a locator. An element
  with an id gets `#id`. Any other element gets the chain of
  `tag.class1.class2` segments from the document element down to it, joined
  by `" > "`.
- `scanAccessibility` of public/content.js, which runs eleven independent WCAG-style rules. It
  collects their `{rule, message, severity, selector}` findings in a fixed rule
  order, and in document order within each rule. Then it counts the findings
  per severity.
- The `scanPage` handler of src/content/content.js. It returns three
  pass/fail flags: non-text content, colour contrast and keyboard access.
- The `enhancePage` handler of src/content/content.js. It rewrites the page:
  stub alt text on images, a forced black-on-white colour pair, and keyboard
  focusability with a visible outline.

The page is a sequence of elements in document order (`Dom.Document`). Each
element has its parent's index; a parent always comes before its children.
Each element also carries:

- its tag name (the DOM `nodeName`: upper-case for HTML, as written for SVG
  and MathML);
- its namespace: HTML, SVG or MathML;
- its content attributes other than `style`;
- its rendered text (`innerText`);
- its computed text and background colours, as opaque strings;
- its `tabIndex`;
- its inline style declarations, which are the whole of its `style`
  attribute. They are keyed by longhand property, as a browser stores
  them: assigning the `outline` shorthand sets `outline-width`,
  `outline-style` and `outline-color`, and a well-formed page holds no
  `all`, `background` or `outline` key (`Dom.StyleWellFormed`).

`querySelectorAll` is a filter over positions. A lower-case type selector
such as `img` matches an element whose local name it is: an HTML element in
any case of its tag name, an SVG or MathML element only under exactly that
name. The `className`, `classList`, `id`, `alt` and `disabled` properties are
derived from the attributes in `Dom` and `PageCheck`.

The namespace matters in four places:

- `getUniqueSelector` adds the class suffix whenever `el.className` is
  truthy. That holds for every non-empty class attribute, even one of white
  space alone. It also holds for every SVG element, whose `className` is an
  object. Such an element without class names gets a segment ending in a
  bare `"."` (`Selector.BlankClassLeavesDot`).
- The button and link rules of `scanAccessibility` call `innerText.trim()`.
  `innerText` is undefined on SVG and MathML elements, so an `a` or `button`
  there makes the whole scan throw before it answers
  (`Rules.ScanAccessibility`).
- `disabled` exists only on HTML buttons and inputs among the elements the
  keyboard check visits.
- The `alt` property exists only on HTML images, so `scanPage` and
  `enhancePage` treat an image outside HTML differently (see Left out).

Modules:

- `Text`: ECMAScript `trim`, ASCII `toLowerCase`, `join`, and the
  ASCII-white-space tokenizer behind `classList`.
- `Dom`: the page.
- `Selector`: `getUniqueSelector`.
- `Rules`: the rule set, the scan and the summary.
- `RuleProperties`: the rules' cross-cutting properties.
- `DuplicateIds`: the one-pass duplicate-id table.
- `PageCheck`: `scanPage`.
- `Enhance`: `enhancePage`.
- `ForeignElements`: two small pages with SVG content.

## Model

| member | source | states |
|---|---|---|
| Text.Trim | public/content.js:12 | `trim` removes only white space from the two ends, leaves neither end on white space, and yields "" exactly when the string is all white space |
| Text.TokensAreWords | public/content.js:237 | splitting a class attribute on ASCII white space (`Text.Tokens`) yields non-empty, white-space-free class names |
| Text.TokensSplit | public/content.js:237 | the class attribute is exactly its tokens (`Text.Tokens`) with runs of ASCII white space around them: a non-empty run between each two neighbours, possibly empty runs at the two ends; so the tokens are the maximal white-space-free stretches, in order |
| Text.Dedup | public/content.js:237 | `classList` (`Dom.ClassList`, the deduplicated tokens) holds every class name of the attribute, each exactly once, and nothing else |
| Text.DedupKeepsFirstOrder | public/content.js:237 | `classList` lists its class names in the order of their first occurrence in the attribute |
| Text.TokensOfChain | public/content.js:242 | splitting a `" > "`-joined chain of white-space-free segments on white space gives back the segments with `">"` between neighbours |
| Selector.Ancestry | public/content.js:234-241 | walking parent links from an element ends at the document element; the walk, read root first, is a parent chain ending at the element with strictly increasing positions |
| Selector.ParentChainUnique | public/content.js:234-241 | any parent chain from the document element to an element is exactly its ancestry, so the walk's result is determined |
| Selector.GetUniqueSelector | public/content.js:230-243 | the loop that prepends each level's segment (`Selector.Segment`: the lower-cased nodeName, then `"."` and the class names joined by `"."` when `className` is truthy) and steps to the parent element terminates; it produces `#id` for an element with an id, otherwise the root-first chain of segments joined by `" > "` |
| Selector.IdShortcut | public/content.js:230-231 | an element with a non-empty id gets `"#" + id`, whatever its tree or position |
| Selector.ChainShape | public/content.js:233-242 | without an id, the locator consists of one segment per level from the document element down to the element, with a `">"` between neighbours: `2 * levels - 1` white-space-separated tokens |
| Selector.ChainExtendsParent | public/content.js:239-242 | a child's chain is its parent's chain, then `" > "`, then its own segment, even when the parent has an id |
| Selector.SegmentIsWord | public/content.js:235-238 | each segment (`Selector.Segment`) is one white-space-free word that starts with the lower-cased tag name |
| Selector.BlankClassLeavesDot | public/content.js:236-237 | a truthy `className` without class names (a class attribute of white space alone, or an SVG element without a class attribute) makes the segment the tag followed by a bare `"."` |
| Rules.OffendersSpec | public/content.js:11-178 | a node rule lists exactly the elements its condition (`Rules.Offends`, one case per rule) matches, each once, in document order |
| Rules.NoOffenders | public/content.js:11-178 | a node rule reports nothing exactly when no element matches its condition `Rules.Offends` |
| Rules.NodeFindings | public/content.js:13-18 | each node finding carries its rule's identifier, message and severity, and the element's locator (for duplicate ids, `"#"` and the id) |
| Rules.PageFindings | public/content.js:111-160 | the language, title and heading rules each report at most once, with a fixed finding, exactly when they fire |
| Rules.RuleFindings | public/content.js:11-178 | every finding of a rule carries that rule's identifier, message and severity |
| Rules.ScanAccessibility | public/content.js:5-190 | the scan throws without answering exactly when some `a` or `button` element lacks `innerText` (it is outside the HTML namespace), the `label[for]` query that can also throw being left out; otherwise it answers with the findings of all rules in catalogue order and per-severity counts (`Rules.Summarize`), each the number of findings of that severity (`Rules.CountsOccurrences`), that add up to the number of findings; the duplicate-id rule in it is the corrected one (see Findings) |
| Rules.CountsOccurrences | public/content.js:183-187 | each count of `Rules.Summarize` is the number of findings with that severity, the occurrences of it among the findings' severities, as `issues.filter(i => i.severity === s).length` is |
| Rules.SummaryTotal | public/content.js:183-187 | every finding has one of the three severities, so the three filter counts of `Rules.Summarize` sum to the number of findings |
| RuleProperties.ScanByRule | public/content.js:5-178 | picking one rule's findings out of the whole scan gives exactly that rule's findings, in order: rules neither interfere nor interleave |
| RuleProperties.ScanEmpty | public/content.js:5-178 | the scan is empty exactly when no rule reports anything |
| RuleProperties.OffenderMultiplicity | public/content.js:11-178 | an element a node rule matches is reported exactly once by that rule, and any other element not at all |
| RuleProperties.ImageAltOnce | public/content.js:11-20 | an image is reported once for missing alt when its alt attribute is absent or blank, and otherwise not |
| RuleProperties.EmptyAltReportedTwice | public/content.js:11-34 | `<img alt="">` without a role is reported twice: once High for missing alt, once Low as a decorative image without a role |
| RuleProperties.ButtonLabelFlagged | public/content.js:39-52 | an element with local name `button` is reported exactly when its text is blank and neither aria-label nor aria-labelledby is non-empty |
| RuleProperties.InputLabelFlagged | public/content.js:57-72 | an input, textarea or select is reported exactly when no label names its non-empty id and neither aria attribute is non-empty |
| RuleProperties.LinkPurposeFlagged | public/content.js:77-88 | a link is reported exactly when its trimmed, lower-cased text is "click here", "read more" or "more" |
| RuleProperties.KeyboardAccessFlagged | public/content.js:93-106 | an element with an onclick attribute is reported exactly when its nodeName is neither BUTTON nor A and it has no tabindex attribute |
| RuleProperties.LanguageAndTitleFlagged | public/content.js:111-130 | the language finding (at `html`) appears at most once, exactly when the document element lacks lang; the title finding (at `title`) at most once, exactly when the title is blank |
| RuleProperties.HeadingsFlagged | public/content.js:153-160 | the heading finding appears at most once, at `body` with Low severity, exactly when there is no h1 to h6 |
| RuleProperties.ContrastFlagged | public/content.js:165-178 | a p, span or label is reported exactly when its text and background colours are equal and not transparent |
| DuplicateIds.FoldMatchesRule | public/content.js:135-148 | the one-pass id table, with a table free of inherited names, reports exactly the elements whose id an earlier element already carries |
| DuplicateIds.DuplicateIdFindingCount | public/content.js:135-148 | for the corrected rule, an id carried by k elements yields exactly k - 1 findings located at `"#" + id` (as written, an id that is an `Object.prototype` name yields k; see Findings) |
| DuplicateIds.FirstOccurrencePasses | public/content.js:145-147 | under the corrected rule, the first element carrying an id is never reported (as written, it is when the id is an `Object.prototype` name; see Findings) |
| DuplicateIds.AsWrittenReports | public/content.js:135-148 | with a plain object as the table, an element is reported when its id was seen before or is a name every object inherits |
| DuplicateIds.ConstructorIdMisreported | public/content.js:138 | a page whose only id is `constructor` gets a duplicate-id report from the table as written and none from the rule |
| ForeignElements.SvgLocatorHasBareDot | public/content.js:230-243 | on `<svg onclick>` inside body, the keyboard rule reports the svg element, and its locator is the parent's chain followed by `svg.` although the element has no class attribute |
| ForeignElements.SvgLinkStopsTheScan | public/content.js:77-88 | a link inside SVG content makes the scan throw before it answers; the same page with an HTML link gets an answer |
| PageCheck.ScanPage | src/content/content.js:3-39 | the non-text flag is cleared exactly when some image has a missing, empty or white-space alt (`PageCheck.BlankAltImage`); the contrast flag exactly when some element has equal, non-empty computed colours (`PageCheck.SameColours`); the keyboard flag exactly when some button, link or input has tab index -1 or is a disabled HTML button or input (`PageCheck.KeyboardTrap`) |
| PageCheck.NonTextAgreesWithImageAltRule | src/content/content.js:11-16 | the image check of `scanPage` fails exactly when the missing-alt rule of `scanAccessibility` reports an image |
| Enhance.FillAlt | src/content/content.js:45-49 | an image with blank alt text gets "Decorative image", every image ends with non-blank alt text, and nothing else changes |
| Enhance.FixContrast | src/content/content.js:52-58 | an element with equal text and background colours gets inline `#000` on `#fff` in its style declarations; its other inline declarations and all its other attributes stay |
| Enhance.ShowFocus | src/content/content.js:61-64 | a button, link or input with tab index -1 gets 0 (and the attribute "0"), any other tab index stays, and each gets the outline `2px solid #1976d2` as its three longhands `outline-width: 2px`, `outline-style: solid` and `outline-color: #1976d2`, overwriting any earlier ones; every other inline declaration stays; other elements are untouched |
| Enhance.EnhanceNode | src/content/content.js:44-64 | the three passes together keep an element's name, namespace, parent, text and given colour fields, which the model does not recompute; fill blank alt text on images; bring a button, link or input with tab index -1 into the tab order and outline it; force the colour pair in the style declarations exactly when the colours are equal; and change no attribute other than alt and tabindex and no inline declaration other than color, background-color and the three outline longhands, those only on a button, link or input, where they are set to the focus outline |
| Enhance.EnhancePage | src/content/content.js:41-68 | enhancement keeps the tree, the text, the given colour fields (not recomputed) and the title, keeps a well-formed page well-formed (inline style still by longhands only), and enhances every element as `Enhance.EnhanceNode` states |
| Enhance.EnhanceAttributesIdempotent | src/content/content.js:45-64 | running enhancement a second time changes no attribute and no tab index |
| Enhance.EnhanceSilencesImageRules | src/content/content.js:45-49 | after enhancement neither image rule of `scanAccessibility` reports anything, and the image check of `scanPage` passes |
| Enhance.EnhanceLeavesOnlyDisabled | src/content/content.js:61-64 | after enhancement the keyboard check of `scanPage` fails exactly on disabled HTML buttons and inputs |

## Left out

- `highlightElement` (scrolling, geometry, an overlay element and a timer) is
  browser side effects with no pure result.
- The `chrome.runtime.onMessage` listeners, `sendResponse` and the console
  log are message plumbing. Each handler is modelled as a function from the
  page to its response or to the new page. A thrown error is modelled as the
  absence of a response.
- The CSS cascade and `getComputedStyle` are not modelled. Computed colours
  are given per element. Enhancement writes inline declarations but does not
  recompute the computed colours of the element or its descendants, so a
  later element in the contrast loop sees its original computed colours.
- Enhance.EnhancePage: keeps each element's given colour fields. In the
  browser, the inline black-on-white pair changes `getComputedStyle` of every
  fixed element, and the inherited text colour of its descendants, so the
  computed colours after enhancement are not the ones the model keeps.
- Inline style values are kept as assigned (`#000`, `2px`). A browser reads
  them back serialized (`rgb(0, 0, 0)`); nothing in the handlers reads an
  inline value back. Shorthands other than `all`, `background` and
  `outline` are not tracked, since they cover no property the handlers
  write.
- `innerText` rendering is not modelled; each element's rendered text is given.
- Text.ToLower: lower-cases ASCII letters only. JavaScript's `toLowerCase`
  also maps other letters, e.g. U+212A KELVIN SIGN to `k`, so a link reading
  "CLIC" + U+212A + " HERE" is reported by the source as "click here" but not
  by the model.
- Rules.ScanAccessibility: the duplicate-id check (WCAG 4.1.1) inside it is
  modelled as evidently intended, reporting an element only when an earlier
  element has the same id (`Rules.IdSeenBefore`). The source's table as
  written, which also reports ids that are `Object.prototype` names, is
  `DuplicateIds.DuplicateIdFoldAsWritten` (see Findings). The scan also
  throws when the `label[for]` query of the input rule throws; the model
  does not, see the `Rules.HasLabelFor` line.
- Rules.HasLabelFor: compares the `for` attribute with the raw id. The
  source splices the id unescaped into `label[for="..."]`. A newline in the
  id, or a double quote that breaks the selector (as in `a"b`), makes
  `querySelector` throw, and the scan with it. A double quote can also turn
  the query into a different valid selector. A backslash starts a CSS
  escape: for the id `a\b` the source looks up "a" followed by U+000B, so it
  misses the label with `for="a\b"` and reports the input, while the model
  finds the label. None of this is modelled.
- PageCheck.ScanPage: reads the alt attribute of every `img`. An `img`
  outside the HTML namespace has no `alt` property. Only script can make
  one, since the HTML parser moves `img` out of SVG and MathML content. For
  such an image `scanPage` reads `undefined` and clears the flag whatever its
  alt attribute says.
- Enhance.FillAlt: writes the alt attribute. On an `img` outside the HTML
  namespace, `img.alt = ...` sets a script property instead and leaves the
  attribute alone.
- `tabIndex` is given per element. Its reflection from the tabindex attribute
  and its default values per element type are not modelled.
- The `alt` and `disabled` properties are derived from the alt and disabled
  attributes. The model reads `disabled` only on HTML BUTTON and INPUT
  elements, the only elements with it that the keyboard check visits; links,
  and every element outside HTML, have no such property.
- src/popup/Popup.jsx, the report server and the build scripts are not part
  of this model: they are a display shell, an HTTP sink that logs, and
  packaging.

## Findings

| source | as written | input that shows it | evidently intended | confidence | as-written member | corrected member |
|---|---|---|---|---|---|---|
| public/content.js:135-148 | the seen-id table is a plain object `{}`, so `ids[id]` is truthy for a recorded id and for any name every object inherits (`constructor`, `toString`, `__proto__`, …) | a page whose only element with an id has `id="constructor"`: it is reported as "Duplicate ID found on page" although the id is unique | report an element only when an earlier element carries the same id (a table without inherited names, such as a `Set` or `Object.create(null)`) | not executed | DuplicateIds.DuplicateIdFoldAsWritten | DuplicateIds.DuplicateIdFold |

`DuplicateIds.ConstructorIdMisreported` exhibits the discrepancy on that
page. `DuplicateIds.FoldMatchesRule` proves that the corrected pass reports
exactly the elements whose id appeared earlier. That is the rule
`Rules.Offends` states, and the rest of the model uses it.

=== FILE: dom.dfy ===
/** The page as the scanners see it: its elements in document order, each
    with the attributes, rendered text and computed colours the rules read. */
module Dom {
  import opened Text

  datatype Option<T> = None | Some(value: T)

  /** The namespace of an element. The HTML parser puts `svg` and `math`
      subtrees, and most elements inside them, in the SVG and MathML
      namespaces; the properties the scanners read differ there. */
  datatype Namespace = Html | Svg | MathMl

  /** One element.
      - `tag`: the DOM nodeName (upper-case for HTML elements, e.g. "IMG";
        as written for SVG and MathML elements, e.g. "a" or "foreignObject");
      - `ns`: its namespace;
      - `attrs`: the content attributes other than `style`, so
        `hasAttribute(a)` is `a in attrs` for every other `a`;
      - `text`: what `innerText` reports;
      - `color`, `background`: the computed `color` and `backgroundColor` strings;
      - `tabIndex`: what the `tabIndex` property reports;
      - `style`: the inline style declarations, by longhand CSS property
        name, with each value as it was assigned: the `style` attribute
        lives here and nowhere else;
      - `parent`: index of the parent element, `None` for the document element. */
  datatype Node = Node(
    tag: string,
    ns: Namespace,
    attrs: map<string, string>,
    text: string,
    color: string,
    background: string,
    tabIndex: int,
    style: map<string, string>,
    parent: Option<nat>)

  /** A page: its elements in document order (`nodes[0]` is the document
      element) and the value `document.title` reports. */
  datatype Document = Document(nodes: seq<Node>, title: string)

  /** The CSS shorthands covering the properties the handlers write
      (`color`, `background-color` and the outline longhands). Assigning a
      shorthand sets its longhands, so an inline style declaration block never
      holds one of these names. */
  const Shorthands: set<string> := {"all", "background", "outline"}

  /** The inline style is kept in `style` alone, never among the
      attributes, and by longhand names only. */
  predicate StyleWellFormed(n: Node) {
    "style" !in n.attrs && n.style.Keys !! Shorthands
  }

  /** Document order lists a parent before its children, only the document
      element has no parent element, and every inline style is well formed. */
  predicate Valid(doc: Document) {
    && |doc.nodes| > 0
    && doc.nodes[0].parent.None?
    && (forall i :: 0 < i < |doc.nodes| ==>
          doc.nodes[i].parent.Some? && doc.nodes[i].parent.value < i)
    && (forall i :: 0 <= i < |doc.nodes| ==> StyleWellFormed(doc.nodes[i]))
  }

  predicate HasAttr(n: Node, name: string) {
    name in n.attrs
  }

  /** `getAttribute(name)` with the absent case read as the empty string; the
      rules only ever test the result for truthiness or compare it to a string. */
  function Attr(n: Node, name: string): string {
    if name in n.attrs then n.attrs[name] else ""
  }

  /** `getAttribute(name)` is truthy: present and not the empty string. */
  predicate AttrFilled(n: Node, name: string) {
    name in n.attrs && n.attrs[name] != ""
  }

  /** The `id` property: the id attribute, or "" when there is none. */
  function Id(n: Node): string {
    Attr(n, "id")
  }

  /** The class attribute, or "" when there is none: the `className`
      string of an HTML or MathML element. */
  function ClassName(n: Node): string {
    Attr(n, "class")
  }

  /** `className` is truthy. On an SVG element it is an `SVGAnimatedString`
      object, truthy even without a class attribute; elsewhere it is the
      class attribute, truthy when non-empty. */
  predicate ClassNameTruthy(n: Node) {
    n.ns == Svg || ClassName(n) != ""
  }

  /** The `classList` token set: the class attribute split on ASCII white
      space, each class name once, in first-occurrence order. */
  function ClassList(n: Node): seq<string> {
    Dedup(Tokens(ClassName(n)))
  }

  /** The element's local name: the nodeName lower-cased for an HTML
      element, and the nodeName itself for any other. */
  function LocalName(n: Node): string {
    if n.ns == Html then ToLower(n.tag) else n.tag
  }

  /** A lower-case type selector such as `img` matches an element whose
      local name it is: an HTML element whatever the case of its nodeName,
      an SVG or MathML element only under exactly that name. */
  predicate Is(n: Node, name: string) {
    LocalName(n) == name
  }

  predicate IsOneOf(n: Node, names: seq<string>) {
    LocalName(n) in names
  }

  /** The element has `innerText`, which only HTML elements define. */
  predicate HasInnerText(n: Node) {
    n.ns == Html
  }

  /** Element names are non-empty and hold no white space. */
  predicate WellFormedTags(doc: Document) {
    forall i :: 0 <= i < |doc.nodes| ==> doc.nodes[i].tag != [] && NoAsciiSpace(doc.nodes[i].tag)
  }
}

=== FILE: duplicate_ids.dfy ===
/** The one-pass duplicate-id table of `scanAccessibility`, twice: it walks
    the elements that carry an id attribute, remembering the ids seen so far
    and reporting an element whose id the table already answers for. As
    written (`DuplicateIdFoldAsWritten`) the table is a plain object, which
    also answers for inherited names; corrected (`DuplicateIdFold`) it holds
    only the ids seen. */
module DuplicateIds {
  import opened Dom
  import opened Rules

  /** The ids carried by the elements before position `k`. */
  function IdsBefore(doc: Document, k: nat): set<string>
    requires k <= |doc.nodes|
  {
    set j | 0 <= j < k && HasAttr(doc.nodes[j], "id") :: doc.nodes[j].attrs["id"]
  }

  /** The pass from position `k` on, with `seen` the ids already recorded.
      Lookups consult only the ids recorded. */
  function DuplicateIdFold(doc: Document, k: nat, seen: set<string>): seq<nat>
    requires k <= |doc.nodes|
    decreases |doc.nodes| - k
  {
    if k == |doc.nodes| then []
    else
      var n := doc.nodes[k];
      if !HasAttr(n, "id") then DuplicateIdFold(doc, k + 1, seen)
      else if n.attrs["id"] in seen then [k] + DuplicateIdFold(doc, k + 1, seen)
      else DuplicateIdFold(doc, k + 1, seen + {n.attrs["id"]})
  }

  lemma IdsBeforeStep(doc: Document, k: nat)
    requires k < |doc.nodes|
    ensures IdsBefore(doc, k + 1)
      == IdsBefore(doc, k) + (if HasAttr(doc.nodes[k], "id") then {doc.nodes[k].attrs["id"]} else {})
  {
  }

  lemma IdsBeforeMeansSeen(doc: Document, k: nat)
    requires k < |doc.nodes| && HasAttr(doc.nodes[k], "id")
    ensures doc.nodes[k].attrs["id"] in IdsBefore(doc, k) <==> IdSeenBefore(doc, k)
  {
    if doc.nodes[k].attrs["id"] in IdsBefore(doc, k) {
      var j :| 0 <= j < k && HasAttr(doc.nodes[j], "id") && doc.nodes[j].attrs["id"] == doc.nodes[k].attrs["id"];
    }
  }

  lemma {:induction false} FoldFrom(doc: Document, k: nat)
    requires k <= |doc.nodes|
    ensures Offenders(doc, DuplicateId, |doc.nodes|)
      == Offenders(doc, DuplicateId, k) + DuplicateIdFold(doc, k, IdsBefore(doc, k))
    decreases |doc.nodes| - k
  {
    if k < |doc.nodes| {
      var n := doc.nodes[k];
      var seen := IdsBefore(doc, k);
      var pre := Offenders(doc, DuplicateId, k);
      OffendersStep(doc, DuplicateId, k + 1);
      IdsBeforeStep(doc, k);
      FoldFrom(doc, k + 1);
      var rest := DuplicateIdFold(doc, k + 1, IdsBefore(doc, k + 1));
      if HasAttr(n, "id") {
        IdsBeforeMeansSeen(doc, k);
        if n.attrs["id"] in seen {
          assert IdsBefore(doc, k + 1) == seen;
          assert DuplicateIdFold(doc, k, seen) == [k] + rest;
          assert Offenders(doc, DuplicateId, k + 1) == pre + [k];
        } else {
          assert IdsBefore(doc, k + 1) == seen + {n.attrs["id"]};
          assert DuplicateIdFold(doc, k, seen) == rest;
          assert !Offends(doc, DuplicateId, k);
          assert Offenders(doc, DuplicateId, k + 1) == pre;
        }
      } else {
        assert IdsBefore(doc, k + 1) == seen;
        assert DuplicateIdFold(doc, k, seen) == rest;
        assert Offenders(doc, DuplicateId, k + 1) == pre;
      }
    } else {
      assert DuplicateIdFold(doc, k, IdsBefore(doc, k)) == [];
    }
  }

  /** The one-pass lookup table reports exactly the elements the duplicate-id
      rule describes: those whose id an earlier element already carries. */
  lemma FoldMatchesRule(doc: Document)
    ensures DuplicateIdFold(doc, 0, {}) == Offenders(doc, DuplicateId, |doc.nodes|)
  {
    FoldFrom(doc, 0);
    assert IdsBefore(doc, 0) == {};
  }

  /** How many of the first `n` elements carry id `v`. */
  function Carriers(doc: Document, v: string, n: nat): nat
    requires n <= |doc.nodes|
  {
    if n == 0 then 0
    else Carriers(doc, v, n - 1) + (if HasAttr(doc.nodes[n - 1], "id") && doc.nodes[n - 1].attrs["id"] == v then 1 else 0)
  }

  /** How many of the elements listed in `o` have id `v`. */
  function IdCount(doc: Document, o: seq<nat>, v: string): nat
    requires forall k :: 0 <= k < |o| ==> o[k] < |doc.nodes|
  {
    if |o| == 0 then 0
    else IdCount(doc, o[..|o| - 1], v) + (if Id(doc.nodes[o[|o| - 1]]) == v then 1 else 0)
  }

  lemma {:induction false} CarriersPositive(doc: Document, v: string, n: nat)
    requires n <= |doc.nodes|
    ensures Carriers(doc, v, n) > 0
        <==> exists j :: 0 <= j < n && HasAttr(doc.nodes[j], "id") && doc.nodes[j].attrs["id"] == v
  {
    if n > 0 {
      CarriersPositive(doc, v, n - 1);
    }
  }

  lemma {:induction false} DuplicateCountPrefix(doc: Document, v: string, n: nat)
    requires n <= |doc.nodes|
    ensures IdCount(doc, Offenders(doc, DuplicateId, n), v)
        == if Carriers(doc, v, n) == 0 then 0 else Carriers(doc, v, n) - 1
  {
    if n > 0 {
      var i := n - 1;
      var o := Offenders(doc, DuplicateId, i);
      OffendersStep(doc, DuplicateId, n);
      DuplicateCountPrefix(doc, v, i);
      var node := doc.nodes[i];
      if HasAttr(node, "id") && node.attrs["id"] == v {
        CarriersPositive(doc, v, i);
        if Carriers(doc, v, i) > 0 {
          assert IdSeenBefore(doc, i);
          assert Offenders(doc, DuplicateId, n) == o + [i];
          assert (o + [i])[..|o|] == o;
        } else {
          assert !IdSeenBefore(doc, i);
          assert Offenders(doc, DuplicateId, n) == o;
        }
      } else if Offends(doc, DuplicateId, i) {
        assert Offenders(doc, DuplicateId, n) == o + [i];
        assert (o + [i])[..|o|] == o;
      } else {
        assert Offenders(doc, DuplicateId, n) == o;
      }
    }
  }

  /** How many findings carry locator `s`. */
  function CountSelector(fs: seq<Finding>, s: string): nat {
    if |fs| == 0 then 0
    else CountSelector(fs[..|fs| - 1], s) + (if fs[|fs| - 1].selector == s then 1 else 0)
  }

  lemma {:induction false} SelectorCountIsIdCount(doc: Document, fs: seq<Finding>, o: seq<nat>, v: string)
    requires forall k :: 0 <= k < |o| ==> o[k] < |doc.nodes|
    requires |fs| == |o|
    requires forall k :: 0 <= k < |fs| ==> fs[k].selector == "#" + Id(doc.nodes[o[k]])
    ensures CountSelector(fs, "#" + v) == IdCount(doc, o, v)
    decreases |fs|
  {
    if |fs| > 0 {
      var m := |fs| - 1;
      SelectorCountIsIdCount(doc, fs[..m], o[..m], v);
      var id := Id(doc.nodes[o[m]]);
      assert ("#" + id)[1..] == id && ("#" + v)[1..] == v;
      assert "#" + id == "#" + v <==> id == v;
    }
  }

  /** An id carried by `k` elements yields exactly `k - 1` duplicate-id
      findings located at `"#" + id`: every occurrence but the first. */
  lemma DuplicateIdFindingCount(doc: Document, v: string)
    requires Valid(doc)
    ensures var c := Carriers(doc, v, |doc.nodes|);
      CountSelector(RuleFindings(doc, DuplicateId), "#" + v) == if c == 0 then 0 else c - 1
  {
    var o := Offenders(doc, DuplicateId, |doc.nodes|);
    SelectorCountIsIdCount(doc, RuleFindings(doc, DuplicateId), o, v);
    DuplicateCountPrefix(doc, v, |doc.nodes|);
  }

  /** The first element to carry an id is never reported. */
  lemma FirstOccurrencePasses(doc: Document, i: nat)
    requires i < |doc.nodes| && HasAttr(doc.nodes[i], "id")
    requires forall j :: 0 <= j < i && HasAttr(doc.nodes[j], "id") ==> doc.nodes[j].attrs["id"] != doc.nodes[i].attrs["id"]
    ensures i !in DuplicateIdFold(doc, 0, {})
  {
    FoldMatchesRule(doc);
    OffendersSpec(doc, DuplicateId, |doc.nodes|);
    assert !IdSeenBefore(doc, i);
  }

  /** The names a plain JavaScript object inherits from `Object.prototype`;
      looking any of them up yields a truthy value. */
  const InheritedNames: set<string> := {
    "constructor", "hasOwnProperty", "isPrototypeOf", "propertyIsEnumerable",
    "toString", "toLocaleString", "valueOf", "__proto__",
    "__defineGetter__", "__defineSetter__", "__lookupGetter__", "__lookupSetter__"
  }

  /** The pass as written: `ids[id]` on an ordinary object is truthy for a
      recorded id and also for every inherited name. */
  function DuplicateIdFoldAsWritten(doc: Document, k: nat, seen: set<string>): seq<nat>
    requires k <= |doc.nodes|
    decreases |doc.nodes| - k
  {
    if k == |doc.nodes| then []
    else
      var n := doc.nodes[k];
      if !HasAttr(n, "id") then DuplicateIdFoldAsWritten(doc, k + 1, seen)
      else if n.attrs["id"] in seen || n.attrs["id"] in InheritedNames then [k] + DuplicateIdFoldAsWritten(doc, k + 1, seen)
      else DuplicateIdFoldAsWritten(doc, k + 1, seen + {n.attrs["id"]})
  }

  lemma {:induction false} AsWrittenFrom(doc: Document, k: nat, i: nat)
    requires k <= |doc.nodes|
    ensures i in DuplicateIdFoldAsWritten(doc, k, IdsBefore(doc, k) - InheritedNames)
        <==> k <= i < |doc.nodes| && HasAttr(doc.nodes[i], "id")
             && (IdSeenBefore(doc, i) || doc.nodes[i].attrs["id"] in InheritedNames)
    decreases |doc.nodes| - k
  {
    if k < |doc.nodes| {
      var n := doc.nodes[k];
      var seen := IdsBefore(doc, k) - InheritedNames;
      IdsBeforeStep(doc, k);
      AsWrittenFrom(doc, k + 1, i);
      var rest := DuplicateIdFoldAsWritten(doc, k + 1, IdsBefore(doc, k + 1) - InheritedNames);
      if HasAttr(n, "id") {
        IdsBeforeMeansSeen(doc, k);
        if n.attrs["id"] in seen || n.attrs["id"] in InheritedNames {
          assert IdsBefore(doc, k + 1) - InheritedNames == seen;
          assert DuplicateIdFoldAsWritten(doc, k, seen) == [k] + rest;
        } else {
          assert IdsBefore(doc, k + 1) - InheritedNames == seen + {n.attrs["id"]};
          assert DuplicateIdFoldAsWritten(doc, k, seen) == rest;
        }
      } else {
        assert IdsBefore(doc, k + 1) - InheritedNames == seen;
        assert DuplicateIdFoldAsWritten(doc, k, seen) == rest;
      }
    }
  }

  /** As written, the pass reports every element the rule describes and, in
      addition, every element whose id is an inherited name, even the first. */
  lemma AsWrittenReports(doc: Document, i: nat)
    ensures i in DuplicateIdFoldAsWritten(doc, 0, {})
        <==> i < |doc.nodes| && HasAttr(doc.nodes[i], "id")
             && (IdSeenBefore(doc, i) || doc.nodes[i].attrs["id"] in InheritedNames)
  {
    assert IdsBefore(doc, 0) - InheritedNames == {};
    AsWrittenFrom(doc, 0, i);
  }

  /** A page whose only element has `id="constructor"`. */
  function LoneConstructorId(): Document {
    Document([Node("HTML", Html, map["id" := "constructor"], "", "", "", -1, map[], None)], "Home")
  }

  /** On that page the id is unique, yet the pass as written reports it as a
      duplicate; the corrected pass reports nothing. */
  lemma ConstructorIdMisreported()
    ensures Valid(LoneConstructorId())
    ensures DuplicateIdFoldAsWritten(LoneConstructorId(), 0, {}) == [0]
    ensures DuplicateIdFold(LoneConstructorId(), 0, {}) == []
    ensures Offenders(LoneConstructorId(), DuplicateId, 1) == []
  {
    var doc := LoneConstructorId();
    assert "constructor" in InheritedNames;
    assert DuplicateIdFoldAsWritten(doc, 1, {}) == [];
    assert DuplicateIdFold(doc, 1, {"constructor"}) == [];
    FoldMatchesRule(doc);
  }
}

=== FILE: enhance.dfy ===
/** The `enhancePage` handler of src/content/content.js as a rewrite of the page: stub alt text on
    images without any, force a black-on-white colour pair where text and
    background colours coincide, and put every button, link and input in the
    tab order with a visible outline. */
module Enhance {
  import opened Text
  import opened Dom
  import opened Rules
  import opened PageCheck

  const StubAlt: string := "Decorative image"
  const ForcedColor: string := "#000"
  const ForcedBackground: string := "#fff"
  /** `style.outline = "2px solid #1976d2"` assigns the `outline` shorthand,
      which sets these three longhands. */
  const FocusOutlineWidth: string := "2px"
  const FocusOutlineStyle: string := "solid"
  const FocusOutlineColor: string := "#1976d2"

  /** The longhands the `outline` shorthand stands for. */
  predicate IsOutlineLonghand(p: string) {
    p == "outline-width" || p == "outline-style" || p == "outline-color"
  }

  /** The inline style carries the focus outline in each of its longhands. */
  predicate HasFocusOutline(style: map<string, string>) {
    && "outline-width" in style && style["outline-width"] == FocusOutlineWidth
    && "outline-style" in style && style["outline-style"] == FocusOutlineStyle
    && "outline-color" in style && style["outline-color"] == FocusOutlineColor
  }

  /** `m` and `m'` agree on key `k`: both lack it, or both map it alike. */
  predicate SameEntry(m: map<string, string>, m': map<string, string>, k: string) {
    (k in m <==> k in m') && (k in m ==> m[k] == m'[k])
  }

  /** The fields every pass leaves alone: element name and namespace, parent,
      text and the given colour fields, which the model does not recompute. */
  predicate SameShape(n: Node, n': Node) {
    n'.tag == n.tag && n'.ns == n.ns && n'.parent == n.parent && n'.text == n.text
    && n'.color == n.color && n'.background == n.background
  }

  /** An image without alt text gets the stub; nothing else changes. */
  function FillAlt(n: Node): (n': Node)
    ensures SameShape(n, n') && n'.tabIndex == n.tabIndex && n'.style == n.style
    ensures forall a :: a != "alt" ==> SameEntry(n.attrs, n'.attrs, a)
    ensures Is(n, "img") ==> !AllJsSpace(AltText(n'))
    ensures Is(n, "img") && AllJsSpace(AltText(n)) ==> AltText(n') == StubAlt
    ensures !(Is(n, "img") && AllJsSpace(AltText(n))) ==> n' == n
  {
    if BlankAltImage(n) then
      assert !IsJsSpace(StubAlt[0]);
      n.(attrs := n.attrs["alt" := StubAlt])
    else n
  }

  /** Equal text and background colours get an inline black-on-white pair;
      the attributes and the tab index stay. */
  function FixContrast(n: Node): (n': Node)
    ensures SameShape(n, n') && n'.tabIndex == n.tabIndex && n'.attrs == n.attrs
    ensures forall p :: p != "color" && p != "background-color" ==> SameEntry(n.style, n'.style, p)
    ensures n.color == n.background ==>
      && "color" in n'.style && n'.style["color"] == ForcedColor
      && "background-color" in n'.style && n'.style["background-color"] == ForcedBackground
    ensures n.color != n.background ==> n' == n
  {
    if n.color == n.background
    then n.(style := n.style["color" := ForcedColor]["background-color" := ForcedBackground])
    else n
  }

  /** A button, link or input leaves no element out of the tab order and gets
      the focus outline; setting `tabIndex` writes the tabindex attribute as
      well. Other elements are untouched. */
  function ShowFocus(n: Node): (n': Node)
    ensures SameShape(n, n')
    ensures forall a :: a != "tabindex" ==> SameEntry(n.attrs, n'.attrs, a)
    ensures forall p :: !IsOutlineLonghand(p) ==> SameEntry(n.style, n'.style, p)
    ensures IsOneOf(n, Interactive) ==>
      && n'.tabIndex == (if n.tabIndex == -1 then 0 else n.tabIndex)
      && (n.tabIndex == -1 ==> "tabindex" in n'.attrs && n'.attrs["tabindex"] == "0")
      && (n.tabIndex != -1 ==> n'.attrs == n.attrs)
      && HasFocusOutline(n'.style)
    ensures !IsOneOf(n, Interactive) ==> n' == n
  {
    if !IsOneOf(n, Interactive) then n
    else
      var style := n.style["outline-width" := FocusOutlineWidth]["outline-style" := FocusOutlineStyle]
                          ["outline-color" := FocusOutlineColor];
      if n.tabIndex == -1 then n.(tabIndex := 0, attrs := n.attrs["tabindex" := "0"], style := style)
      else n.(style := style)
  }

  function MapNodes(doc: Document, f: Node -> Node): (d: Document)
    ensures |d.nodes| == |doc.nodes| && d.title == doc.title
    ensures forall i :: 0 <= i < |d.nodes| ==> d.nodes[i] == f(doc.nodes[i])
  {
    Document(seq(|doc.nodes|, i requires 0 <= i < |doc.nodes| => f(doc.nodes[i])), doc.title)
  }

  /** What enhancement does to one element `n`, giving `n'`: the element
      name, parent, text and given colours stay; attributes other than alt
      and tabindex keep their values; an image with blank alt text gets the
      stub, and every image ends with non-blank alt text; a button, link or
      input out of the tab order is put in it, any other element keeps its
      tab index, and each button, link and input gets the focus outline; an
      element whose text colour equals its background gets an inline
      black-on-white pair, and any other keeps its inline colours; no other
      inline declaration changes, and only a button, link or input can have
      its outline longhands changed. */
  ghost predicate Enhanced(n: Node, n': Node) {
    && SameShape(n, n')
    && (forall a :: a != "alt" && a != "tabindex" ==> SameEntry(n.attrs, n'.attrs, a))
    && (if Is(n, "img") && AllJsSpace(AltText(n))
        then AltText(n') == StubAlt
        else SameEntry(n.attrs, n'.attrs, "alt"))
    && (Is(n, "img") ==> !AllJsSpace(AltText(n')))
    && (if IsOneOf(n, Interactive) && n.tabIndex == -1
        then n'.tabIndex == 0 && "tabindex" in n'.attrs && n'.attrs["tabindex"] == "0"
        else n'.tabIndex == n.tabIndex && SameEntry(n.attrs, n'.attrs, "tabindex"))
    && (IsOneOf(n, Interactive) ==> HasFocusOutline(n'.style))
    && (if n.color == n.background
        then && "color" in n'.style && n'.style["color"] == ForcedColor
             && "background-color" in n'.style && n'.style["background-color"] == ForcedBackground
        else SameEntry(n.style, n'.style, "color") && SameEntry(n.style, n'.style, "background-color"))
    && (!IsOneOf(n, Interactive) ==> forall p :: IsOutlineLonghand(p) ==> SameEntry(n.style, n'.style, p))
    && (forall p :: p != "color" && p != "background-color" && !IsOutlineLonghand(p) ==> SameEntry(n.style, n'.style, p))
  }

  /** The three passes applied to one element. */
  function EnhanceNode(n: Node): (n': Node)
    ensures Enhanced(n, n')
  {
    var a := FillAlt(n);
    var c := FixContrast(a);
    assert IsOneOf(c, Interactive) == IsOneOf(n, Interactive) && Is(a, "img") == Is(n, "img");
    ShowFocus(c)
  }

  /** The three passes over the page in the source's order; the page keeps
      its tree and title, and every element is enhanced as `Enhanced` says. */
  function EnhancePage(doc: Document): (d: Document)
    ensures |d.nodes| == |doc.nodes| && d.title == doc.title
    ensures Valid(doc) ==> Valid(d)
    ensures forall i :: 0 <= i < |d.nodes| ==> Enhanced(doc.nodes[i], d.nodes[i])
  {
    var d := MapNodes(MapNodes(MapNodes(doc, FillAlt), FixContrast), ShowFocus);
    PassesCompose(doc);
    assert Valid(doc) ==> Valid(d) by {
      forall i | 0 <= i < |d.nodes| ensures d.nodes[i].parent == doc.nodes[i].parent {
        KeepsParentAndStyle(doc.nodes[i]);
      }
      forall i | 0 <= i < |d.nodes| && StyleWellFormed(doc.nodes[i]) ensures StyleWellFormed(d.nodes[i]) {
        KeepsParentAndStyle(doc.nodes[i]);
      }
    }
    d
  }

  /** The three page passes, one after the other, enhance each element as
      `EnhanceNode` does. */
  lemma PassesCompose(doc: Document)
    ensures var d := MapNodes(MapNodes(MapNodes(doc, FillAlt), FixContrast), ShowFocus);
      forall i :: 0 <= i < |d.nodes| ==> d.nodes[i] == EnhanceNode(doc.nodes[i])
  {
  }

  /** Enhancement keeps the parent, writes no `style` attribute and only
      longhand declarations. */
  lemma KeepsParentAndStyle(n: Node)
    ensures EnhanceNode(n).parent == n.parent
    ensures StyleWellFormed(n) ==> StyleWellFormed(EnhanceNode(n))
  {
    var n' := EnhanceNode(n);
    assert Enhanced(n, n');
    assert SameEntry(n.attrs, n'.attrs, "style");
    forall p | p in Shorthands ensures p in n.style <==> p in n'.style {
      assert SameEntry(n.style, n'.style, p);
    }
  }

  /** Enhancing an enhanced element changes no attribute and no tab index. */
  lemma AttributesSettle(n: Node, n1: Node, n2: Node)
    requires Enhanced(n, n1) && Enhanced(n1, n2)
    ensures n2.attrs == n1.attrs && n2.tabIndex == n1.tabIndex
  {
    assert SameEntry(n1.attrs, n2.attrs, "alt");
    assert SameEntry(n1.attrs, n2.attrs, "tabindex");
    forall a ensures SameEntry(n1.attrs, n2.attrs, a) && (a in n1.attrs <==> a in n2.attrs) {
      if a != "alt" && a != "tabindex" {
        assert SameEntry(n1.attrs, n2.attrs, a);
      }
    }
    assert n2.attrs.Keys == n1.attrs.Keys;
  }

  /** Running the handler a second time changes no attribute and no tab
      index: every image already has alt text and nothing is left out of the
      tab order. */
  lemma EnhanceAttributesIdempotent(doc: Document)
    ensures var d, d2 := EnhancePage(doc), EnhancePage(EnhancePage(doc));
      forall i :: 0 <= i < |d.nodes| ==>
        d2.nodes[i].attrs == d.nodes[i].attrs && d2.nodes[i].tabIndex == d.nodes[i].tabIndex
  {
    var d, d2 := EnhancePage(doc), EnhancePage(EnhancePage(doc));
    forall i | 0 <= i < |d.nodes|
      ensures d2.nodes[i].attrs == d.nodes[i].attrs && d2.nodes[i].tabIndex == d.nodes[i].tabIndex
    {
      AttributesSettle(doc.nodes[i], d.nodes[i], d2.nodes[i]);
    }
  }

  /** An enhanced element is no image with blank alt text. */
  lemma ImageAltFilled(n: Node, n': Node)
    requires Enhanced(n, n')
    ensures Is(n', "img") ==> !AllJsSpace(AltText(n'))
  {
  }

  /** An element that is no image with blank alt text offends neither image
      rule. */
  lemma ImageRulesSilent(d: Document, i: nat)
    requires i < |d.nodes|
    requires Is(d.nodes[i], "img") ==> !AllJsSpace(AltText(d.nodes[i]))
    ensures !Offends(d, ImageAlt, i) && !Offends(d, DecorativeImage, i)
  {
    if Is(d.nodes[i], "img") {
      assert AllJsSpace("");
    }
  }

  /** On a page where every image has non-blank alt text, neither image rule
      nor the image check of `scanPage` reports anything. */
  lemma FilledAltSilences(d: Document)
    requires forall i :: 0 <= i < |d.nodes| ==> Is(d.nodes[i], "img") ==> !AllJsSpace(AltText(d.nodes[i]))
    ensures Offenders(d, ImageAlt, |d.nodes|) == []
    ensures Offenders(d, DecorativeImage, |d.nodes|) == []
  {
    NoOffenders(d, ImageAlt, |d.nodes|);
    NoOffenders(d, DecorativeImage, |d.nodes|);
    forall i | 0 <= i < |d.nodes| ensures !Offends(d, ImageAlt, i) && !Offends(d, DecorativeImage, i) {
      ImageRulesSilent(d, i);
    }
  }

  /** After enhancement `scanAccessibility` reports no image for missing alt
      text or for an empty alt without a role, and the image check of
      `scanPage` passes. */
  lemma EnhanceSilencesImageRules(doc: Document)
    ensures var d := EnhancePage(doc);
      && Offenders(d, ImageAlt, |d.nodes|) == []
      && Offenders(d, DecorativeImage, |d.nodes|) == []
      && forall i :: 0 <= i < |d.nodes| ==> !BlankAltImage(d.nodes[i])
  {
    var d := EnhancePage(doc);
    forall i | 0 <= i < |d.nodes| ensures Is(d.nodes[i], "img") ==> !AllJsSpace(AltText(d.nodes[i])) {
      ImageAltFilled(doc.nodes[i], d.nodes[i]);
    }
    FilledAltSilences(d);
  }

  /** An enhanced element fails the keyboard check only when it is a
      disabled button or input. */
  lemma OnlyDisabledTraps(n: Node, n': Node)
    requires Enhanced(n, n')
    ensures KeyboardTrap(n') <==> IsOneOf(n, Interactive) && Disabled(n)
  {
    assert SameEntry(n.attrs, n'.attrs, "disabled");
  }

  /** After enhancement the keyboard check of `scanPage` fails only because
      of a disabled button or input: no element is out of the tab order any
      more. */
  lemma EnhanceLeavesOnlyDisabled(doc: Document)
    ensures var d := EnhancePage(doc);
      forall i :: 0 <= i < |d.nodes| ==>
        (KeyboardTrap(d.nodes[i]) <==> IsOneOf(doc.nodes[i], Interactive) && Disabled(doc.nodes[i]))
  {
    var d := EnhancePage(doc);
    forall i | 0 <= i < |d.nodes|
      ensures KeyboardTrap(d.nodes[i]) <==> IsOneOf(doc.nodes[i], Interactive) && Disabled(doc.nodes[i])
    {
      OnlyDisabledTraps(doc.nodes[i], d.nodes[i]);
    }
  }
}

=== FILE: foreign_elements.dfy ===
/** Two small pages with SVG content, showing what the namespace changes:
    an SVG element's locator segment always carries a `"."`, and an SVG link
    stops `scanAccessibility` before it answers. */
module ForeignElements {
  import opened Text
  import opened Dom
  import opened Selector
  import opened Rules

  /** An HTML element with no attributes. */
  function Plain(tag: string, parent: Option<nat>): Node {
    Node(tag, Html, map[], "", "", "", -1, map[], parent)
  }

  /** `<html><body><svg onclick="go()"></svg></body></html>`. */
  function ClickableSvg(): Document {
    Document([Plain("HTML", None), Plain("BODY", Some(0)),
              Node("svg", Svg, map["onclick" := "go()"], "", "", "", -1, map[], Some(1))], "Home")
  }

  /** `<html><body><svg><a href="#">more</a></svg></body></html>`, with the
      link in namespace `ns`; its nodeName is upper-case when that is HTML. */
  function LinkInSvg(ns: Namespace): Document {
    Document([Plain("HTML", None), Plain("BODY", Some(0)),
              Node("svg", Svg, map[], "", "", "", -1, map[], Some(1)),
              Node(if ns == Html then "A" else "a", ns, map["href" := "#"], "more", "", "", 0, map[], Some(2))], "Home")
  }

  lemma LowerHtml()
    ensures ToLower("HTML") == "html"
  {
    assert ToLower("HTML")[0] == 'h' && ToLower("HTML")[1] == 't';
    assert ToLower("HTML")[2] == 'm' && ToLower("HTML")[3] == 'l';
  }

  lemma LowerBody()
    ensures ToLower("BODY") == "body"
  {
    assert ToLower("BODY")[0] == 'b' && ToLower("BODY")[1] == 'o';
    assert ToLower("BODY")[2] == 'd' && ToLower("BODY")[3] == 'y';
  }

  lemma LowerSvg()
    ensures ToLower("svg") == "svg"
  {
    assert ToLower("svg")[0] == 's' && ToLower("svg")[1] == 'v' && ToLower("svg")[2] == 'g';
  }

  /** The three segments: the HTML elements have no class attribute, so no
      suffix; the SVG element's truthy `className` adds a bare `"."`. */
  lemma ClickableSvgSegments()
    ensures var doc := ClickableSvg();
      Segment(doc.nodes[0]) == "html" && Segment(doc.nodes[1]) == "body" && Segment(doc.nodes[2]) == "svg."
  {
    var doc := ClickableSvg();
    LowerHtml();
    LowerBody();
    LowerSvg();
    BlankClassLeavesDot(doc.nodes[2]);
  }

  /** The clickable SVG element is reported by the keyboard rule, and its
      locator is its parent's chain followed by `"svg."`, although it has no
      class attribute. */
  lemma SvgLocatorHasBareDot()
    ensures Valid(ClickableSvg())
    ensures Offends(ClickableSvg(), KeyboardAccess, 2)
    ensures UniqueSelector(ClickableSvg(), 2) == Chain(ClickableSvg(), 1) + " > " + "svg."
  {
    var doc := ClickableSvg();
    ClickableSvgSegments();
    assert Id(doc.nodes[2]) == "";
    ChainExtendsParent(doc, 2);
  }

  /** No element of the page with an HTML link lacks the text it reads. */
  lemma HtmlLinkReadable()
    ensures Valid(LinkInSvg(Html))
    ensures forall i :: 0 <= i < |LinkInSvg(Html).nodes| ==> !TextReadFails(LinkInSvg(Html).nodes[i])
  {
    var doc := LinkInSvg(Html);
    LowerHtml();
    LowerBody();
    forall i | 0 <= i < |doc.nodes| ensures !TextReadFails(doc.nodes[i]) {
    }
  }

  /** A link inside SVG content makes the scan throw; the same page with an
      HTML link is answered. */
  lemma SvgLinkStopsTheScan()
    ensures Valid(LinkInSvg(Svg)) && Valid(LinkInSvg(Html))
    ensures ScanAccessibility(LinkInSvg(Svg)).Threw?
    ensures ScanAccessibility(LinkInSvg(Html)).Answered?
  {
    assert TextReadFails(LinkInSvg(Svg).nodes[3]);
    HtmlLinkReadable();
  }
}

=== FILE: page_check.dfy ===
/** The `scanPage` handler of src/content/content.js: three pass/fail checks over the page,
    each starting out true and cleared by the first element that fails it. */
module PageCheck {
  import opened Text
  import opened Dom
  import opened Rules

  datatype Results = Results(nonText: bool, contrast: bool, keyboard: bool)

  /** The elements the keyboard check and the focus pass visit. */
  const Interactive: seq<string> := ["button", "a", "input"]

  /** The `alt` property of an image: its alt attribute, or "" without one. */
  function AltText(n: Node): string {
    Attr(n, "alt")
  }

  /** An image whose alt text is missing, empty or white space: `alt.trim()`
      is empty exactly when every character is white space (see `Trim`). */
  predicate BlankAltImage(n: Node) {
    Is(n, "img") && AllJsSpace(AltText(n))
  }

  /** Computed text and background colours are non-empty and equal. */
  predicate SameColours(n: Node) {
    n.background != "" && n.color != "" && n.background == n.color
  }

  /** The `disabled` property: it exists on HTML buttons and inputs and
      reflects the disabled attribute; on links, and on any SVG or MathML
      element, it is undefined. */
  predicate Disabled(n: Node) {
    n.ns == Html && (Is(n, "button") || Is(n, "input")) && HasAttr(n, "disabled")
  }

  /** A button, link or input that is out of the tab order or disabled. */
  predicate KeyboardTrap(n: Node) {
    IsOneOf(n, Interactive) && (n.tabIndex == -1 || Disabled(n))
  }

  /** The three checks, each a loop over the elements in document order. */
  method ScanPage(doc: Document) returns (r: Results)
    ensures !r.nonText <==> exists i :: 0 <= i < |doc.nodes| && BlankAltImage(doc.nodes[i])
    ensures !r.contrast <==> exists i :: 0 <= i < |doc.nodes| && SameColours(doc.nodes[i])
    ensures !r.keyboard <==> exists i :: 0 <= i < |doc.nodes| && KeyboardTrap(doc.nodes[i])
  {
    var nonText, contrast, keyboard := true, true, true;
    var k := 0;
    while k < |doc.nodes|
      invariant 0 <= k <= |doc.nodes|
      invariant !nonText <==> exists i :: 0 <= i < k && BlankAltImage(doc.nodes[i])
    {
      if BlankAltImage(doc.nodes[k]) {
        nonText := false;
      }
      k := k + 1;
    }
    k := 0;
    while k < |doc.nodes|
      invariant 0 <= k <= |doc.nodes|
      invariant !contrast <==> exists i :: 0 <= i < k && SameColours(doc.nodes[i])
    {
      if SameColours(doc.nodes[k]) {
        contrast := false;
      }
      k := k + 1;
    }
    k := 0;
    while k < |doc.nodes|
      invariant 0 <= k <= |doc.nodes|
      invariant !keyboard <==> exists i :: 0 <= i < k && KeyboardTrap(doc.nodes[i])
    {
      if KeyboardTrap(doc.nodes[k]) {
        keyboard := false;
      }
      k := k + 1;
    }
    r := Results(nonText, contrast, keyboard);
  }

  /** The image check of `scanPage` fails exactly when `scanAccessibility`
      reports a missing-alt image: both read an absent alt as empty and trim
      it. */
  lemma NonTextAgreesWithImageAltRule(doc: Document)
    ensures (exists i :: 0 <= i < |doc.nodes| && BlankAltImage(doc.nodes[i]))
        <==> Offenders(doc, ImageAlt, |doc.nodes|) != []
  {
    NoOffenders(doc, ImageAlt, |doc.nodes|);
    forall i | 0 <= i < |doc.nodes| ensures BlankAltImage(doc.nodes[i]) <==> Offends(doc, ImageAlt, i) {
      var n := doc.nodes[i];
      if HasAttr(n, "alt") {
        assert AltText(n) == n.attrs["alt"];
      } else {
        assert AltText(n) == "";
      }
    }
  }
}

=== FILE: rule_properties.dfy ===
/** What the scan promises about its findings: each rule's findings appear
    as one contiguous, document-ordered block in rule order, every offending
    element is reported exactly once per rule, and the per-rule conditions. */
module RuleProperties {
  import opened Text
  import opened Dom
  import opened Selector
  import opened Rules

  /** The findings of `fs` that carry identifier `code` and message `message`,
      in order. */
  function Picked(fs: seq<Finding>, code: string, message: string): (sub: seq<Finding>)
    ensures |sub| <= |fs|
    ensures forall k :: 0 <= k < |sub| ==> sub[k].rule == code && sub[k].message == message
  {
    if |fs| == 0 then []
    else (if fs[0].rule == code && fs[0].message == message then [fs[0]] else []) + Picked(fs[1..], code, message)
  }

  /** The findings of `fs` that carry rule `r`'s identifier and message. */
  function OfRule(fs: seq<Finding>, r: Rule): seq<Finding> {
    Picked(fs, r.Code(), r.Message())
  }

  lemma {:induction false} PickedConcat(a: seq<Finding>, b: seq<Finding>, code: string, message: string)
    ensures Picked(a + b, code, message) == Picked(a, code, message) + Picked(b, code, message)
    decreases |a|
  {
    if |a| == 0 {
      assert a + b == b;
    } else {
      assert (a + b)[0] == a[0];
      assert (a + b)[1..] == a[1..] + b;
      PickedConcat(a[1..], b, code, message);
    }
  }

  lemma {:induction false} PickedAll(fs: seq<Finding>, code: string, message: string)
    requires forall k :: 0 <= k < |fs| ==> fs[k].rule == code && fs[k].message == message
    ensures Picked(fs, code, message) == fs
    decreases |fs|
  {
    if |fs| > 0 {
      PickedAll(fs[1..], code, message);
    }
  }

  lemma {:induction false} PickedNone(fs: seq<Finding>, code: string, message: string)
    requires forall k :: 0 <= k < |fs| ==> !(fs[k].rule == code && fs[k].message == message)
    ensures Picked(fs, code, message) == []
    decreases |fs|
  {
    if |fs| > 0 {
      PickedNone(fs[1..], code, message);
    }
  }

  /** No two rules share both their identifier and their message (the two
      "WCAG 1.1.1" rules differ in message). */
  lemma KeysDistinct(r: Rule, r': Rule)
    requires r.Code() == r'.Code() && r.Message() == r'.Message()
    ensures r == r'
  {
  }

  /** A rule's findings all carry its own key. */
  lemma OfRuleSame(doc: Document, r: Rule)
    requires Valid(doc)
    ensures OfRule(RuleFindings(doc, r), r) == RuleFindings(doc, r)
  {
    PickedAll(RuleFindings(doc, r), r.Code(), r.Message());
  }

  /** No finding of one rule carries another rule's key. */
  lemma OfRuleOther(doc: Document, r': Rule, r: Rule)
    requires Valid(doc) && r' != r
    ensures OfRule(RuleFindings(doc, r'), r) == []
  {
    var fs := RuleFindings(doc, r');
    var code, message := r.Code(), r.Message();
    assert !(r'.Code() == code && r'.Message() == message) by {
      if r'.Code() == code && r'.Message() == message {
        KeysDistinct(r, r');
      }
    }
    PickedNone(fs, code, message);
  }

  predicate Distinct(rules: seq<Rule>) {
    forall k, l :: 0 <= k < l < |rules| ==> rules[k] != rules[l]
  }

  /** Dropping the first rule of a list without repeats leaves a list without
      repeats, which holds `r` exactly when the list did, unless `r` was first. */
  lemma DistinctTail(rules: seq<Rule>, r: Rule)
    requires |rules| > 0 && Distinct(rules)
    ensures Distinct(rules[1..])
    ensures rules[0] == r ==> r !in rules[1..]
    ensures rules[0] != r ==> (r in rules <==> r in rules[1..])
  {
    if rules[0] == r {
      forall k | 0 <= k < |rules[1..]| ensures rules[1..][k] != r {
        assert rules[1..][k] == rules[k + 1];
      }
    } else {
      assert rules == [rules[0]] + rules[1..];
    }
  }

  lemma {:induction false} ScanRulesByRule(doc: Document, rules: seq<Rule>, r: Rule)
    requires Valid(doc) && Distinct(rules)
    ensures OfRule(ScanRules(doc, rules), r) == if r in rules then RuleFindings(doc, r) else []
    decreases |rules|
  {
    if |rules| > 0 {
      var head, tail := RuleFindings(doc, rules[0]), ScanRules(doc, rules[1..]);
      assert ScanRules(doc, rules) == head + tail;
      PickedConcat(head, tail, r.Code(), r.Message());
      DistinctTail(rules, r);
      ScanRulesByRule(doc, rules[1..], r);
      if rules[0] == r {
        OfRuleSame(doc, r);
      } else {
        OfRuleOther(doc, rules[0], r);
      }
    }
  }

  /** Picking out one rule's findings from the whole scan gives exactly what
      that rule reports, in the same order: the rules neither interfere nor
      interleave. */
  lemma ScanByRule(doc: Document, r: Rule)
    requires Valid(doc)
    ensures OfRule(Scan(doc), r) == RuleFindings(doc, r)
  {
    assert r in Catalog by { match r case _ => }
    ScanRulesByRule(doc, Catalog, r);
  }

  /** The scan of a defect-free page is empty, and only such a scan is. */
  lemma {:induction false} ScanEmpty(doc: Document)
    requires Valid(doc)
    ensures Scan(doc) == [] <==> forall r: Rule :: RuleFindings(doc, r) == []
  {
    if Scan(doc) == [] {
      forall r: Rule ensures RuleFindings(doc, r) == [] {
        ScanByRule(doc, r);
      }
    } else {
      var fs := Scan(doc);
      var f := fs[0];
      FindingHasRule(doc, Catalog, f);
      var r: Rule :| r.Code() == f.rule && r.Message() == f.message;
      ScanByRule(doc, r);
      assert Picked(fs, r.Code(), r.Message()) == [f] + Picked(fs[1..], r.Code(), r.Message());
    }
  }

  lemma {:induction false} FindingHasRule(doc: Document, rules: seq<Rule>, f: Finding)
    requires Valid(doc) && f in ScanRules(doc, rules)
    ensures exists r: Rule :: r.Code() == f.rule && r.Message() == f.message
    decreases |rules|
  {
    if f in RuleFindings(doc, rules[0]) {
      var fs := RuleFindings(doc, rules[0]);
      var k :| 0 <= k < |fs| && fs[k] == f;
      assert rules[0].Code() == f.rule && rules[0].Message() == f.message;
    } else {
      FindingHasRule(doc, rules[1..], f);
    }
  }

  /** In a strictly increasing sequence every value occurs at most once. */
  lemma {:induction false} IncreasingOccursOnce(o: seq<nat>, i: nat)
    requires forall k, l :: 0 <= k < l < |o| ==> o[k] < o[l]
    ensures multiset(o)[i] == if i in o then 1 else 0
    decreases |o|
  {
    if |o| > 0 {
      var last := o[|o| - 1];
      var init := o[..|o| - 1];
      assert o == init + [last];
      assert multiset(o) == multiset(init) + multiset{last};
      IncreasingOccursOnce(init, i);
      if i == last {
        assert i !in init by {
          forall k | 0 <= k < |init| ensures init[k] != i {
            assert init[k] == o[k];
          }
        }
      } else {
        assert i in o <==> i in init;
      }
    }
  }

  /** Every element a node rule matches is reported exactly once by it, and
      no other element is. */
  lemma OffenderMultiplicity(doc: Document, r: Rule, n: nat, i: nat)
    requires n <= |doc.nodes| && i < |doc.nodes|
    ensures multiset(Offenders(doc, r, n))[i] == if i < n && Offends(doc, r, i) then 1 else 0
  {
    var o := Offenders(doc, r, n);
    OffendersSpec(doc, r, n);
    IncreasingOccursOnce(o, i);
    if i in o {
      var k :| 0 <= k < |o| && o[k] == i;
    }
  }

  /** An image gets exactly one missing-alt finding when its alt attribute is
      absent or blank, and none otherwise. */
  lemma ImageAltOnce(doc: Document, i: nat)
    requires Valid(doc) && i < |doc.nodes| && Is(doc.nodes[i], "img")
    ensures var n := doc.nodes[i];
      multiset(Offenders(doc, ImageAlt, |doc.nodes|))[i]
        == if !HasAttr(n, "alt") || AllJsSpace(n.attrs["alt"]) then 1 else 0
  {
    OffenderMultiplicity(doc, ImageAlt, |doc.nodes|, i);
  }

  /** `<img alt="">` without a role is reported twice: once as missing alt
      text (High) and once as a decorative image without a role (Low). */
  lemma EmptyAltReportedTwice(doc: Document, i: nat)
    requires Valid(doc) && i < |doc.nodes|
    requires Is(doc.nodes[i], "img") && HasAttr(doc.nodes[i], "alt") && doc.nodes[i].attrs["alt"] == ""
    requires !HasAttr(doc.nodes[i], "role")
    ensures multiset(Offenders(doc, ImageAlt, |doc.nodes|))[i] == 1
    ensures multiset(Offenders(doc, DecorativeImage, |doc.nodes|))[i] == 1
    ensures ImageAlt.Level() == High && DecorativeImage.Level() == Low
  {
    OffenderMultiplicity(doc, ImageAlt, |doc.nodes|, i);
    OffenderMultiplicity(doc, DecorativeImage, |doc.nodes|, i);
  }

  /** A link is reported exactly when its trimmed, lower-cased text is one of
      the three generic phrases. */
  lemma LinkPurposeFlagged(doc: Document, i: nat)
    requires Valid(doc) && i < |doc.nodes|
    ensures var n := doc.nodes[i];
      (i in Offenders(doc, LinkPurpose, |doc.nodes|)
       <==> Is(n, "a") && ToLower(Trim(n.text)) in {"click here", "read more", "more"})
  {
    OffendersSpec(doc, LinkPurpose, |doc.nodes|);
    assert i in Offenders(doc, LinkPurpose, |doc.nodes|) <==> Offends(doc, LinkPurpose, i);
    var t := ToLower(Trim(doc.nodes[i].text));
    assert t in BadLinkText <==> t in {"click here", "read more", "more"};
  }

  /** An element with an inline click handler is reported exactly when it is
      neither a BUTTON nor an A element and has no tabindex attribute. */
  lemma KeyboardAccessFlagged(doc: Document, i: nat)
    requires Valid(doc) && i < |doc.nodes|
    ensures var n := doc.nodes[i];
      (i in Offenders(doc, KeyboardAccess, |doc.nodes|)
       <==> "onclick" in n.attrs && n.tag !in {"BUTTON", "A"} && "tabindex" !in n.attrs)
  {
    OffendersSpec(doc, KeyboardAccess, |doc.nodes|);
  }

  /** A button is reported exactly when its text is empty or white space and
      neither aria-label nor aria-labelledby holds a non-empty value. */
  lemma ButtonLabelFlagged(doc: Document, i: nat)
    requires Valid(doc) && i < |doc.nodes|
    ensures var n := doc.nodes[i];
      (i in Offenders(doc, ButtonLabel, |doc.nodes|)
       <==> && LocalName(n) == "button" && AllJsSpace(n.text)
            && Attr(n, "aria-label") == "" && Attr(n, "aria-labelledby") == "")
  {
    OffendersSpec(doc, ButtonLabel, |doc.nodes|);
  }

  /** An input, textarea or select is reported exactly when it has no label:
      no `label` element names its non-empty id in `for`, and neither
      aria-label nor aria-labelledby holds a non-empty value. */
  lemma InputLabelFlagged(doc: Document, i: nat)
    requires Valid(doc) && i < |doc.nodes|
    ensures var n := doc.nodes[i];
      (i in Offenders(doc, InputLabel, |doc.nodes|)
       <==> && LocalName(n) in {"input", "textarea", "select"}
            && (Id(n) != "" ==> forall j :: 0 <= j < |doc.nodes| && LocalName(doc.nodes[j]) == "label"
                                  ==> Attr(doc.nodes[j], "for") != Id(n) || !HasAttr(doc.nodes[j], "for"))
            && Attr(n, "aria-label") == "" && Attr(n, "aria-labelledby") == "")
  {
    OffendersSpec(doc, InputLabel, |doc.nodes|);
    var t := LocalName(doc.nodes[i]);
    assert t in FormControls <==> t in {"input", "textarea", "select"};
  }

  /** A p, span or label element is reported exactly when its computed text
      and background colours are equal and not the transparent colour. */
  lemma ContrastFlagged(doc: Document, i: nat)
    requires Valid(doc) && i < |doc.nodes|
    ensures var n := doc.nodes[i];
      (i in Offenders(doc, Contrast, |doc.nodes|)
       <==> LocalName(n) in {"p", "span", "label"} && n.color == n.background && n.color != "rgba(0, 0, 0, 0)")
  {
    OffendersSpec(doc, Contrast, |doc.nodes|);
    var t := LocalName(doc.nodes[i]);
    assert t in TextTags <==> t in {"p", "span", "label"};
  }

  /** The heading rule reports once, at `body`, exactly when the page has no
      h1 to h6 element. */
  lemma HeadingsFlagged(doc: Document)
    requires Valid(doc)
    ensures |RuleFindings(doc, Headings)| <= 1
    ensures RuleFindings(doc, Headings) != []
        <==> forall i :: 0 <= i < |doc.nodes| ==> LocalName(doc.nodes[i]) !in {"h1", "h2", "h3", "h4", "h5", "h6"}
    ensures forall f :: f in RuleFindings(doc, Headings) ==> f.selector == "body" && f.severity == Low
  {
  }

  /** The language rule reports once, at `html`, exactly when the document
      element has no lang attribute; the title rule reports once, at `title`,
      exactly when the title is empty or white space. */
  lemma LanguageAndTitleFlagged(doc: Document)
    requires Valid(doc)
    ensures |RuleFindings(doc, PageLanguage)| <= 1 && |RuleFindings(doc, PageTitle)| <= 1
    ensures RuleFindings(doc, PageLanguage) != [] <==> "lang" !in doc.nodes[0].attrs
    ensures RuleFindings(doc, PageTitle) != [] <==> AllJsSpace(doc.title)
    ensures forall f :: f in RuleFindings(doc, PageLanguage) ==> f.selector == "html"
    ensures forall f :: f in RuleFindings(doc, PageTitle) ==> f.selector == "title"
  {
  }
}

=== FILE: rules.dfy ===
/** The rule set of `scanAccessibility`: eleven independent checks over the
    page, each producing findings in document order, concatenated in a fixed
    rule order, followed by a per-severity summary. */
module Rules {
  import opened Text
  import opened Dom
  import opened Selector

  datatype Severity = High | Medium | Low

  /** One reported issue: `{rule, message, severity, selector}`. */
  datatype Finding = Finding(rule: string, message: string, severity: Severity, selector: string)

  /** The checks, named after what they look for. */
  datatype Rule =
    | ImageAlt | DecorativeImage | ButtonLabel | InputLabel | LinkPurpose
    | KeyboardAccess | PageLanguage | PageTitle | DuplicateId | Headings | Contrast
  {
    function Code(): string {
      match this
      case ImageAlt => "WCAG 1.1.1"
      case DecorativeImage => "WCAG 1.1.1"
      case ButtonLabel => "WCAG 4.1.2"
      case InputLabel => "WCAG 3.3.2"
      case LinkPurpose => "WCAG 2.4.4"
      case KeyboardAccess => "WCAG 2.1.1"
      case PageLanguage => "WCAG 1.3.1"
      case PageTitle => "WCAG 2.4.1"
      case DuplicateId => "WCAG 4.1.1"
      case Headings => "WCAG 2.4.6"
      case Contrast => "WCAG 1.4.3"
    }

    function Message(): string {
      match this
      case ImageAlt => "Image missing alt attribute"
      case DecorativeImage => "Decorative image missing role='presentation'"
      case ButtonLabel => "Button missing accessible label"
      case InputLabel => "Form input missing label"
      case LinkPurpose => "Link text is not descriptive"
      case KeyboardAccess => "Clickable element is not keyboard accessible"
      case PageLanguage => "Page is missing language attribute"
      case PageTitle => "Page title is missing or empty"
      case DuplicateId => "Duplicate ID found on page"
      case Headings => "Page has no heading structure"
      case Contrast => "Text may have insufficient color contrast"
    }

    function Level(): Severity {
      match this
      case ImageAlt => High
      case DecorativeImage => Low
      case ButtonLabel => High
      case InputLabel => Medium
      case LinkPurpose => Medium
      case KeyboardAccess => Medium
      case PageLanguage => Medium
      case PageTitle => Medium
      case DuplicateId => High
      case Headings => Low
      case Contrast => Low
    }

    /** Rules about the page as a whole, reported at most once. */
    predicate IsPageRule() {
      this == PageLanguage || this == PageTitle || this == Headings
    }

    /** The fixed locator of a page rule's finding. */
    function PageSelector(): string
      requires IsPageRule()
    {
      match this
      case PageLanguage => "html"
      case PageTitle => "title"
      case Headings => "body"
    }
  }

  /** The order in which the scan runs the rules. */
  const Catalog: seq<Rule> := [ImageAlt, DecorativeImage, ButtonLabel, InputLabel, LinkPurpose,
                               KeyboardAccess, PageLanguage, PageTitle, DuplicateId, Headings, Contrast]

  const BadLinkText: seq<string> := ["click here", "read more", "more"]
  const FormControls: seq<string> := ["input", "textarea", "select"]
  const HeadingTags: seq<string> := ["h1", "h2", "h3", "h4", "h5", "h6"]
  const TextTags: seq<string> := ["p", "span", "label"]

  /** The computed colour of a fully transparent background. */
  const Transparent: string := "rgba(0, 0, 0, 0)"

  /** `document.querySelector('label[for="<id>"]')` finds an element. */
  predicate HasLabelFor(doc: Document, id: string) {
    exists j :: 0 <= j < |doc.nodes| && Is(doc.nodes[j], "label") && HasAttr(doc.nodes[j], "for")
                && doc.nodes[j].attrs["for"] == id
  }

  /** Some earlier element in document order carries the same id attribute. */
  predicate IdSeenBefore(doc: Document, i: nat)
    requires i < |doc.nodes| && HasAttr(doc.nodes[i], "id")
  {
    exists j :: 0 <= j < i && HasAttr(doc.nodes[j], "id")
                && doc.nodes[j].attrs["id"] == doc.nodes[i].attrs["id"]
  }

  /** Element `i` is reported by node rule `r`. A test `x.trim() === ""` is
      written `AllJsSpace(x)`, which `Trim`'s contract makes the same. */
  predicate Offends(doc: Document, r: Rule, i: nat)
    requires i < |doc.nodes|
  {
    var n := doc.nodes[i];
    match r
    case ImageAlt =>
      Is(n, "img") && (!HasAttr(n, "alt") || AllJsSpace(n.attrs["alt"]))
    case DecorativeImage =>
      Is(n, "img") && HasAttr(n, "alt") && n.attrs["alt"] == "" && !HasAttr(n, "role")
    case ButtonLabel =>
      Is(n, "button") && AllJsSpace(n.text)
      && !AttrFilled(n, "aria-label") && !AttrFilled(n, "aria-labelledby")
    case InputLabel =>
      IsOneOf(n, FormControls)
      && !(|| (AttrFilled(n, "id") && HasLabelFor(doc, n.attrs["id"]))
           || AttrFilled(n, "aria-label")
           || AttrFilled(n, "aria-labelledby"))
    case LinkPurpose =>
      Is(n, "a") && ToLower(Trim(n.text)) in BadLinkText
    case KeyboardAccess =>
      HasAttr(n, "onclick") && n.tag != "BUTTON" && n.tag != "A" && !HasAttr(n, "tabindex")
    case DuplicateId =>
      HasAttr(n, "id") && IdSeenBefore(doc, i)
    case Contrast =>
      IsOneOf(n, TextTags) && n.color == n.background && n.color != Transparent
    case PageLanguage => false
    case PageTitle => false
    case Headings => false
  }

  /** Page rule `r` fires. */
  predicate PageOffends(doc: Document, r: Rule)
    requires Valid(doc)
  {
    match r
    case PageLanguage => !HasAttr(doc.nodes[0], "lang")
    case PageTitle => AllJsSpace(doc.title)
    case Headings => forall i :: 0 <= i < |doc.nodes| ==> !IsOneOf(doc.nodes[i], HeadingTags)
    case _ => false
  }

  /** The positions below `n` whose flag is set, in increasing order. */
  function Positions(flags: seq<bool>, n: nat): (o: seq<nat>)
    requires n <= |flags|
    ensures forall k :: 0 <= k < |o| ==> o[k] < n
  {
    if n == 0 then []
    else Positions(flags, n - 1) + (if flags[n - 1] then [n - 1] else [])
  }

  /** Each listed position is below `n` and flagged. */
  lemma {:induction false} PositionsFlagged(flags: seq<bool>, n: nat)
    requires n <= |flags|
    ensures forall k :: 0 <= k < |Positions(flags, n)| ==> Positions(flags, n)[k] < n && flags[Positions(flags, n)[k]]
  {
    if n > 0 {
      PositionsFlagged(flags, n - 1);
    }
  }

  /** Every flagged position below `n` is listed, and no other. */
  lemma {:induction false} PositionsComplete(flags: seq<bool>, n: nat)
    requires n <= |flags|
    ensures forall i :: 0 <= i < n ==> (flags[i] <==> i in Positions(flags, n))
  {
    if n > 0 {
      PositionsComplete(flags, n - 1);
      PositionsFlagged(flags, n - 1);
    }
  }

  /** The positions are listed in increasing order. */
  lemma {:induction false} PositionsIncreasing(flags: seq<bool>, n: nat)
    requires n <= |flags|
    ensures forall k, l :: 0 <= k < l < |Positions(flags, n)| ==> Positions(flags, n)[k] < Positions(flags, n)[l]
  {
    if n > 0 {
      PositionsIncreasing(flags, n - 1);
      PositionsFlagged(flags, n - 1);
    }
  }

  /** `Positions` lists exactly the set flags below `n`, in increasing order. */
  lemma PositionsSpec(flags: seq<bool>, n: nat)
    requires n <= |flags|
    ensures var o := Positions(flags, n);
      && (forall k :: 0 <= k < |o| ==> o[k] < n && flags[o[k]])
      && (forall i :: 0 <= i < n ==> (flags[i] <==> i in o))
      && (forall k, l :: 0 <= k < l < |o| ==> o[k] < o[l])
  {
    PositionsFlagged(flags, n);
    PositionsComplete(flags, n);
    PositionsIncreasing(flags, n);
  }

  /** Which elements rule `r` matches, element by element. */
  function Hits(doc: Document, r: Rule): (h: seq<bool>)
    ensures |h| == |doc.nodes|
    ensures forall i :: 0 <= i < |h| ==> h[i] == Offends(doc, r, i)
  {
    seq(|doc.nodes|, i requires 0 <= i < |doc.nodes| => Offends(doc, r, i))
  }

  /** The elements among the first `n` that rule `r` reports, in document
      order, each once: the `forEach` over `querySelectorAll` with its test. */
  function Offenders(doc: Document, r: Rule, n: nat): (o: seq<nat>)
    requires n <= |doc.nodes|
    ensures forall k :: 0 <= k < |o| ==> o[k] < n
  {
    Positions(Hits(doc, r), n)
  }

  /** One more element extends the list exactly when the rule matches it. */
  lemma OffendersStep(doc: Document, r: Rule, n: nat)
    requires 0 < n <= |doc.nodes|
    ensures Offenders(doc, r, n)
         == Offenders(doc, r, n - 1) + (if Offends(doc, r, n - 1) then [n - 1] else [])
  {
  }

  /** `Offenders` lists exactly the matching elements among the first `n`,
      in increasing document order. */
  lemma OffendersSpec(doc: Document, r: Rule, n: nat)
    requires n <= |doc.nodes|
    ensures var o := Offenders(doc, r, n);
      && (forall k :: 0 <= k < |o| ==> o[k] < n && Offends(doc, r, o[k]))
      && (forall i :: 0 <= i < n ==> (Offends(doc, r, i) <==> i in o))
      && (forall k, l :: 0 <= k < l < |o| ==> o[k] < o[l])
  {
    PositionsSpec(Hits(doc, r), n);
  }

  /** A node rule reports nothing among the first `n` elements exactly when
      none of them matches it. */
  lemma NoOffenders(doc: Document, r: Rule, n: nat)
    requires n <= |doc.nodes|
    ensures Offenders(doc, r, n) == [] <==> forall i :: 0 <= i < n ==> !Offends(doc, r, i)
  {
    OffendersSpec(doc, r, n);
    var o := Offenders(doc, r, n);
    if o != [] {
      assert Offends(doc, r, o[0]);
    }
  }

  /** The finding a node rule emits for element `i`; the duplicate-id rule
      builds its locator from the id instead of resolving one. */
  function NodeFinding(doc: Document, r: Rule, i: nat): Finding
    requires Valid(doc) && i < |doc.nodes|
  {
    Finding(r.Code(), r.Message(), r.Level(),
            if r == DuplicateId then "#" + Id(doc.nodes[i]) else UniqueSelector(doc, i))
  }

  /** The findings of a node rule for the listed elements, in list order. */
  function NodeFindings(doc: Document, r: Rule, o: seq<nat>): (fs: seq<Finding>)
    requires Valid(doc) && forall k :: 0 <= k < |o| ==> o[k] < |doc.nodes|
    ensures |fs| == |o|
    ensures forall k :: 0 <= k < |fs| ==>
      && fs[k].rule == r.Code() && fs[k].message == r.Message() && fs[k].severity == r.Level()
      && fs[k].selector == (if r == DuplicateId then "#" + Id(doc.nodes[o[k]]) else UniqueSelector(doc, o[k]))
  {
    seq(|o|, k requires 0 <= k < |o| => NodeFinding(doc, r, o[k]))
  }

  /** The single finding of a page rule, when it fires. */
  function PageFindings(doc: Document, r: Rule): (fs: seq<Finding>)
    requires Valid(doc) && r.IsPageRule()
    ensures |fs| <= 1 && (|fs| == 1 <==> PageOffends(doc, r))
    ensures forall k :: 0 <= k < |fs| ==>
      fs[k] == Finding(r.Code(), r.Message(), r.Level(), r.PageSelector())
  {
    if PageOffends(doc, r) then [Finding(r.Code(), r.Message(), r.Level(), r.PageSelector())] else []
  }

  /** Everything rule `r` reports on the page. */
  function RuleFindings(doc: Document, r: Rule): (fs: seq<Finding>)
    requires Valid(doc)
    ensures forall k :: 0 <= k < |fs| ==>
      fs[k].rule == r.Code() && fs[k].message == r.Message() && fs[k].severity == r.Level()
  {
    if r.IsPageRule() then PageFindings(doc, r)
    else NodeFindings(doc, r, Offenders(doc, r, |doc.nodes|))
  }

  /** The findings of `rules`, run one after another. */
  function ScanRules(doc: Document, rules: seq<Rule>): seq<Finding>
    requires Valid(doc)
  {
    if |rules| == 0 then [] else RuleFindings(doc, rules[0]) + ScanRules(doc, rules[1..])
  }

  /** `issues` of `scanAccessibility`. */
  function Scan(doc: Document): seq<Finding>
    requires Valid(doc)
  {
    ScanRules(doc, Catalog)
  }

  /** How many findings have severity `s`: `issues.filter(...).length`. */
  function CountSeverity(issues: seq<Finding>, s: Severity): nat {
    if |issues| == 0 then 0
    else (if issues[0].severity == s then 1 else 0) + CountSeverity(issues[1..], s)
  }

  datatype Summary = Summary(high: nat, medium: nat, low: nat)

  function Summarize(issues: seq<Finding>): Summary {
    Summary(CountSeverity(issues, High), CountSeverity(issues, Medium), CountSeverity(issues, Low))
  }

  /** What `scanAccessibility` answers: the findings and their summary. */
  datatype Response = Response(issues: seq<Finding>, summary: Summary)

  /** How a run of `scanAccessibility` ends: it answers, or it throws before
      answering. */
  datatype Outcome = Answered(response: Response) | Threw

  /** The button rule reads `innerText` of every element it selects, and so
      does the link rule; on an element without it (an SVG or MathML `a` or
      `button`) the read gives `undefined`, and calling `trim` on it throws. */
  predicate TextReadFails(n: Node) {
    (Is(n, "button") || Is(n, "a")) && !HasInnerText(n)
  }

  /** The scan answers with every rule's findings and their per-severity
      counts, unless some button or link lacks `innerText`: then the run
      throws and no answer is sent. */
  function ScanAccessibility(doc: Document): (r: Outcome)
    requires Valid(doc)
    ensures r.Threw? <==> exists i :: 0 <= i < |doc.nodes| && TextReadFails(doc.nodes[i])
    ensures r.Answered? ==> r.response.issues == Scan(doc)
    ensures r.Answered? ==> r.response.summary == Summarize(r.response.issues)
    ensures r.Answered? ==>
      && r.response.summary.high == multiset(Severities(r.response.issues))[High]
      && r.response.summary.medium == multiset(Severities(r.response.issues))[Medium]
      && r.response.summary.low == multiset(Severities(r.response.issues))[Low]
    ensures r.Answered? ==>
      r.response.summary.high + r.response.summary.medium + r.response.summary.low == |r.response.issues|
  {
    if exists i :: 0 <= i < |doc.nodes| && TextReadFails(doc.nodes[i]) then Threw
    else
      var issues := Scan(doc);
      SummaryTotal(issues);
      CountsOccurrences(issues, High);
      CountsOccurrences(issues, Medium);
      CountsOccurrences(issues, Low);
      Answered(Response(issues, Summarize(issues)))
  }

  /** The severities of the findings, in order. */
  function Severities(issues: seq<Finding>): seq<Severity> {
    seq(|issues|, i requires 0 <= i < |issues| => issues[i].severity)
  }

  /** A summary count is the number of findings of that severity, i.e. the
      length of `issues.filter(i => i.severity === s)`. */
  lemma {:induction false} CountsOccurrences(issues: seq<Finding>, s: Severity)
    ensures CountSeverity(issues, s) == multiset(Severities(issues))[s]
  {
    if |issues| > 0 {
      CountsOccurrences(issues[1..], s);
      assert Severities(issues) == [issues[0].severity] + Severities(issues[1..]);
    }
  }

  /** Every finding has one of the three severities, so the summary counts
      add up to the number of findings. */
  lemma {:induction false} SummaryTotal(issues: seq<Finding>)
    ensures var s := Summarize(issues); s.high + s.medium + s.low == |issues|
  {
    if |issues| > 0 {
      SummaryTotal(issues[1..]);
    }
  }
}

=== FILE: selector.dfy ===
/** The locator every node finding carries (`getUniqueSelector`): `#id` when
    the element has an id, otherwise the chain of `tag.class1.class2` segments
    from the document element down to the element, joined by `" > "`. */
module Selector {
  import opened Text
  import opened Dom

  /** The lower-cased tag, then `"."` and the class names joined by `"."`
      when `className` is truthy. */
  function Segment(n: Node): string {
    ToLower(n.tag) + (if ClassNameTruthy(n) then "." + Join(".", ClassList(n)) else "")
  }

  /** `c` walks parent links from the document element down to `i`. */
  ghost predicate IsParentChain(doc: Document, c: seq<nat>, i: nat) {
    && |c| > 0
    && c[|c| - 1] == i
    && (forall k :: 0 <= k < |c| ==> c[k] < |doc.nodes|)
    && doc.nodes[c[0]].parent.None?
    && (forall k :: 0 < k < |c| ==> doc.nodes[c[k]].parent == Some(c[k - 1]))
  }

  /** The ancestors of `i`, document element first, ending with `i` itself. */
  function Ancestry(doc: Document, i: nat): (c: seq<nat>)
    requires Valid(doc) && i < |doc.nodes|
    ensures IsParentChain(doc, c, i)
    ensures c[0] == 0
    ensures forall k :: 0 <= k < |c| - 1 ==> c[k] < c[k + 1]
    decreases i
  {
    match doc.nodes[i].parent
    case None => [i]
    case Some(p) => Ancestry(doc, p) + [i]
  }

  function Segments(doc: Document, c: seq<nat>): (r: seq<string>)
    requires forall k :: 0 <= k < |c| ==> c[k] < |doc.nodes|
    ensures |r| == |c|
  {
    seq(|c|, k requires 0 <= k < |c| => Segment(doc.nodes[c[k]]))
  }

  /** The `" > "`-joined chain of segments from the document element to `i`. */
  function Chain(doc: Document, i: nat): string
    requires Valid(doc) && i < |doc.nodes|
  {
    Join(" > ", Segments(doc, Ancestry(doc, i)))
  }

  /** `getUniqueSelector(el)` as a function of the document. */
  function UniqueSelector(doc: Document, i: nat): string
    requires Valid(doc) && i < |doc.nodes|
  {
    if Id(doc.nodes[i]) != "" then "#" + Id(doc.nodes[i]) else Chain(doc, i)
  }

  /** The source's loop: prepend the current element's segment, step to its
      parent element, stop above the document element. */
  method GetUniqueSelector(doc: Document, i: nat) returns (s: string)
    requires Valid(doc) && i < |doc.nodes|
    ensures s == UniqueSelector(doc, i)
  {
    var el := doc.nodes[i];
    if Id(el) != "" {
      return "#" + Id(el);
    }
    var path: seq<string> := [];
    var cur: Option<nat> := Some(i);
    while cur.Some?
      invariant cur.Some? ==> cur.value < |doc.nodes|
      invariant cur.Some? ==>
        Segments(doc, Ancestry(doc, i)) == Segments(doc, Ancestry(doc, cur.value)) + path
      invariant cur.None? ==> path == Segments(doc, Ancestry(doc, i))
      decreases if cur.Some? then cur.value + 1 else 0
    {
      var at := cur.value;
      var n := doc.nodes[at];
      SegmentsStep(doc, at);
      path := [Segment(n)] + path;
      cur := n.parent;
    }
    s := Join(" > ", path);
  }

  /** One step of the walk: the chain of `i` is its parent's chain plus the
      segment of `i`, and the walk ends at the document element. */
  lemma SegmentsStep(doc: Document, i: nat)
    requires Valid(doc) && i < |doc.nodes|
    ensures doc.nodes[i].parent.None? ==>
      Segments(doc, Ancestry(doc, i)) == [Segment(doc.nodes[i])]
    ensures doc.nodes[i].parent.Some? ==>
      doc.nodes[i].parent.value < i &&
      Segments(doc, Ancestry(doc, i))
        == Segments(doc, Ancestry(doc, doc.nodes[i].parent.value)) + [Segment(doc.nodes[i])]
  {
    if doc.nodes[i].parent.Some? {
      var p := doc.nodes[i].parent.value;
      var a, b := Segments(doc, Ancestry(doc, i)), Segments(doc, Ancestry(doc, p)) + [Segment(doc.nodes[i])];
      assert |a| == |b|;
      forall k | 0 <= k < |a| ensures a[k] == b[k] {
      }
    }
  }

  /** Parent chains are unique: any walk of parent links from the document
      element down to `i` is the ancestry of `i`. */
  lemma {:induction false} ParentChainUnique(doc: Document, c: seq<nat>, i: nat)
    requires Valid(doc) && i < |doc.nodes|
    requires IsParentChain(doc, c, i)
    ensures c == Ancestry(doc, i)
    decreases |c|
  {
    if |c| == 1 {
      assert doc.nodes[i].parent.None?;
    } else {
      var p := c[|c| - 2];
      assert doc.nodes[i].parent == Some(p);
      var c' := c[..|c| - 1];
      assert IsParentChain(doc, c', p) by {
        forall k | 0 < k < |c'| ensures doc.nodes[c'[k]].parent == Some(c'[k - 1]) {
          assert c'[k] == c[k] && c'[k - 1] == c[k - 1];
        }
      }
      ParentChainUnique(doc, c', p);
      assert c == c' + [i];
    }
  }

  lemma LowerKeepsNoSpace(s: string)
    requires NoAsciiSpace(s)
    ensures NoAsciiSpace(ToLower(s))
  {
    forall k | 0 <= k < |s| ensures !IsAsciiSpace(ToLower(s)[k]) {
      assert ToLower(s)[k] == LowerChar(s[k]);
    }
  }

  lemma ConcatNoSpace(a: string, b: string)
    requires NoAsciiSpace(a) && NoAsciiSpace(b)
    ensures NoAsciiSpace(a + b)
  {
    forall k | 0 <= k < |a + b| ensures !IsAsciiSpace((a + b)[k]) {
      if k >= |a| {
        assert (a + b)[k] == b[k - |a|];
      }
    }
  }

  lemma {:induction false} JoinNoSpace(sep: string, parts: seq<string>)
    requires NoAsciiSpace(sep)
    requires forall k :: 0 <= k < |parts| ==> NoAsciiSpace(parts[k])
    ensures NoAsciiSpace(Join(sep, parts))
    decreases |parts|
  {
    if |parts| > 1 {
      JoinNoSpace(sep, parts[1..]);
      ConcatNoSpace(parts[0], sep);
      ConcatNoSpace(parts[0] + sep, Join(sep, parts[1..]));
    }
  }

  lemma ClassNamesNoSpace(n: Node)
    ensures forall k :: 0 <= k < |ClassList(n)| ==> NoAsciiSpace(ClassList(n)[k])
  {
    TokensAreWords(ClassName(n));
    DedupNoSpace(Tokens(ClassName(n)));
  }

  lemma DedupNoSpace(ts: seq<string>)
    requires forall k :: 0 <= k < |ts| ==> NoAsciiSpace(ts[k])
    ensures forall k :: 0 <= k < |Dedup(ts)| ==> NoAsciiSpace(Dedup(ts)[k])
  {
    var cl := Dedup(ts);
    forall k | 0 <= k < |cl| ensures NoAsciiSpace(cl[k]) {
      assert cl[k] in ts;
    }
  }

  /** With a well-formed tag, a segment is a single white-space-free word
      that starts with the lower-cased tag name. */
  lemma SegmentIsWord(n: Node)
    requires n.tag != [] && NoAsciiSpace(n.tag)
    ensures Segment(n) != [] && NoAsciiSpace(Segment(n))
    ensures Segment(n)[..|n.tag|] == ToLower(n.tag)
  {
    LowerKeepsNoSpace(n.tag);
    ClassNamesNoSpace(n);
    JoinNoSpace(".", ClassList(n));
    ConcatNoSpace(".", Join(".", ClassList(n)));
    var suffix := if ClassNameTruthy(n) then "." + Join(".", ClassList(n)) else "";
    ConcatNoSpace(ToLower(n.tag), suffix);
  }

  /** A truthy `className` with no class names in it (a class attribute of
      white space alone, or an SVG element without a class attribute) makes
      the segment end in a bare `"."`. */
  lemma BlankClassLeavesDot(n: Node)
    requires ClassNameTruthy(n)
    requires forall k :: 0 <= k < |ClassName(n)| ==> IsAsciiSpace(ClassName(n)[k])
    ensures Segment(n) == ToLower(n.tag) + "."
  {
    TokensAllSpace(ClassName(n));
    assert ClassList(n) == [];
  }

  /** The locator of an element with an id is `"#"` and the id, whatever its
      tree or position. */
  lemma IdShortcut(doc: Document, i: nat, doc': Document, j: nat)
    requires Valid(doc) && i < |doc.nodes|
    requires Valid(doc') && j < |doc'.nodes|
    requires Id(doc.nodes[i]) != "" && Id(doc.nodes[i]) == Id(doc'.nodes[j])
    ensures UniqueSelector(doc, i) == UniqueSelector(doc', j) == "#" + Id(doc.nodes[i])
  {
  }

  /** Without an id, the locator splits on white space into exactly the
      segments of the ancestry, one per level from the document element down,
      with a `">"` combinator between neighbours: `2 * depth - 1` tokens. */
  lemma {:induction false} ChainShape(doc: Document, i: nat)
    requires Valid(doc) && WellFormedTags(doc) && i < |doc.nodes|
    requires Id(doc.nodes[i]) == ""
    ensures var c := Ancestry(doc, i);
      && Tokens(UniqueSelector(doc, i)) == Interleave(Segments(doc, c))
      && |Tokens(UniqueSelector(doc, i))| == 2 * |c| - 1
      && c[0] == 0 && c[|c| - 1] == i
  {
    var c := Ancestry(doc, i);
    var segs := Segments(doc, c);
    forall k | 0 <= k < |segs| ensures segs[k] != [] && NoAsciiSpace(segs[k]) {
      SegmentIsWord(doc.nodes[c[k]]);
    }
    TokensOfChain(segs);
  }

  /** The chain of a child extends its parent's chain by one segment, even
      when the parent has an id of its own. */
  lemma ChainExtendsParent(doc: Document, i: nat)
    requires Valid(doc) && i < |doc.nodes| && doc.nodes[i].parent.Some?
    ensures doc.nodes[i].parent.value < i
    ensures Chain(doc, i) == Chain(doc, doc.nodes[i].parent.value) + " > " + Segment(doc.nodes[i])
  {
    var p := doc.nodes[i].parent.value;
    SegmentsStep(doc, i);
    JoinSnoc(" > ", Segments(doc, Ancestry(doc, p)), Segment(doc.nodes[i]));
  }

  lemma {:induction false} JoinSnoc(sep: string, parts: seq<string>, last: string)
    requires |parts| > 0
    ensures Join(sep, parts + [last]) == Join(sep, parts) + sep + last
    decreases |parts|
  {
    if |parts| == 1 {
      assert parts + [last] == [parts[0], last];
    } else {
      assert (parts + [last])[1..] == parts[1..] + [last];
      JoinSnoc(sep, parts[1..], last);
    }
  }
}

=== FILE: text.dfy ===
/** String primitives the scanner relies on: ECMAScript `trim`, ASCII
    `toLowerCase`, `Array.prototype.join`, and the ASCII-whitespace
    tokenizer behind a DOM class list. */
module Text {

  /** The code points `String.prototype.trim` strips: ECMAScript WhiteSpace
      (tab, vertical tab, form feed, space, no-break space, byte-order mark and
      every Zs separator) and LineTerminator (LF, CR, LS, PS). */
  predicate IsJsSpace(c: char) {
    || c == '\t' || c == '\n' || c == '\U{000B}' || c == '\U{000C}' || c == '\r'
    || c == ' ' || c == '\U{00A0}' || c == '\U{1680}' || ('\U{2000}' <= c <= '\U{200A}')
    || c == '\U{2028}' || c == '\U{2029}' || c == '\U{202F}' || c == '\U{205F}'
    || c == '\U{3000}' || c == '\U{FEFF}'
  }

  /** ASCII whitespace as the DOM defines it: the separators of a class attribute. */
  predicate IsAsciiSpace(c: char) {
    c == '\t' || c == '\n' || c == '\U{000C}' || c == '\r' || c == ' '
  }

  predicate AllJsSpace(s: string) {
    forall k :: 0 <= k < |s| ==> IsJsSpace(s[k])
  }

  predicate NoAsciiSpace(s: string) {
    forall k :: 0 <= k < |s| ==> !IsAsciiSpace(s[k])
  }

  function TrimStart(s: string): (r: string)
    ensures |r| <= |s| && r == s[|s| - |r|..]
    ensures r == [] || !IsJsSpace(r[0])
    ensures forall k :: 0 <= k < |s| - |r| ==> IsJsSpace(s[k])
  {
    if |s| > 0 && IsJsSpace(s[0]) then TrimStart(s[1..]) else s
  }

  function TrimEnd(s: string): (r: string)
    ensures |r| <= |s| && r == s[..|r|]
    ensures r == [] || !IsJsSpace(r[|r| - 1])
    ensures forall k :: |r| <= k < |s| ==> IsJsSpace(s[k])
  {
    if |s| > 0 && IsJsSpace(s[|s| - 1]) then TrimEnd(s[..|s| - 1]) else s
  }

  /** `r` is the infix of `s` starting at `a`, and only white space of `s`
      lies outside it. */
  ghost predicate InfixAmidSpace(s: string, r: string, a: int) {
    && 0 <= a <= |s| - |r| && r == s[a..a + |r|]
    && (forall k :: 0 <= k < a ==> IsJsSpace(s[k]))
    && (forall k :: a + |r| <= k < |s| ==> IsJsSpace(s[k]))
  }

  /** `s.trim()`: the longest infix of `s` that neither starts nor ends with
      white space, obtained by dropping only white space on both sides. */
  function Trim(s: string): (r: string)
    ensures exists a :: InfixAmidSpace(s, r, a)
    ensures r == [] || (!IsJsSpace(r[0]) && !IsJsSpace(r[|r| - 1]))
    ensures r == [] <==> AllJsSpace(s)
  {
    var t := TrimStart(s);
    var r := TrimEnd(t);
    assert r == s[|s| - |t|..|s| - |t| + |r|];
    assert InfixAmidSpace(s, r, |s| - |t|);
    r
  }

  function LowerChar(c: char): char {
    if 'A' <= c <= 'Z' then (c as int + 32) as char else c
  }

  /** `s.toLowerCase()` restricted to the ASCII letters. */
  function ToLower(s: string): (r: string)
    ensures |r| == |s|
  {
    seq(|s|, k requires 0 <= k < |s| => LowerChar(s[k]))
  }

  /** `parts.join(sep)`: the empty array joins to the empty string. */
  function Join(sep: string, parts: seq<string>): string
  {
    if |parts| == 0 then ""
    else if |parts| == 1 then parts[0]
    else parts[0] + sep + Join(sep, parts[1..])
  }

  function SkipSpace(s: string): (r: string)
    ensures |r| <= |s| && r == s[|s| - |r|..]
    ensures r == [] || !IsAsciiSpace(r[0])
    ensures forall k :: 0 <= k < |s| - |r| ==> IsAsciiSpace(s[k])
  {
    if |s| > 0 && IsAsciiSpace(s[0]) then SkipSpace(s[1..]) else s
  }

  /** The longest prefix of `s` that holds no ASCII white space. */
  function Word(s: string): (w: string)
    ensures |w| <= |s| && w == s[..|w|]
    ensures NoAsciiSpace(w)
    ensures |w| == |s| || IsAsciiSpace(s[|w|])
  {
    if |s| > 0 && !IsAsciiSpace(s[0]) then [s[0]] + Word(s[1..]) else []
  }

  /** The tokens of `s` split on ASCII white space, in order, as a class
      attribute is split into its class names. */
  function Tokens(s: string): seq<string>
    decreases |s|
  {
    var t := SkipSpace(s);
    if t == [] then []
    else
      var w := Word(t);
      assert w != [] by { assert !IsAsciiSpace(t[0]); }
      [w] + Tokens(t[|w|..])
  }

  /** Every token is a non-empty word without white space. */
  lemma {:induction false} TokensAreWords(s: string)
    ensures forall k :: 0 <= k < |Tokens(s)| ==> Tokens(s)[k] != [] && NoAsciiSpace(Tokens(s)[k])
    decreases |s|
  {
    var t := SkipSpace(s);
    if t != [] {
      var w := Word(t);
      assert !IsAsciiSpace(t[0]);
      var rest := t[|w|..];
      TokensAreWords(rest);
      var ts := Tokens(s);
      assert ts == [w] + Tokens(rest);
      forall k | 0 <= k < |ts| ensures ts[k] != [] && NoAsciiSpace(ts[k]) {
        if k > 0 {
          assert ts[k] == Tokens(rest)[k - 1];
        }
      }
    }
  }

  /** The runs of white space around the tokens of `s`: the one before the
      first token, one between each two neighbours, and the one after the
      last. */
  function Gaps(s: string): seq<string>
    decreases |s|
  {
    var t := SkipSpace(s);
    var lead := s[..|s| - |t|];
    if t == [] then [lead]
    else
      var w := Word(t);
      assert w != [] by { assert !IsAsciiSpace(t[0]); }
      [lead] + Gaps(t[|w|..])
  }

  /** `gaps[0] + ts[0] + gaps[1] + ... + ts[m - 1] + gaps[m]`. */
  function Weave(gaps: seq<string>, ts: seq<string>): string
    requires |gaps| == |ts| + 1
  {
    if |ts| == 0 then gaps[0] else gaps[0] + ts[0] + Weave(gaps[1..], ts[1..])
  }

  predicate AllAsciiSpace(s: string) {
    forall k :: 0 <= k < |s| ==> IsAsciiSpace(s[k])
  }

  /** A string is its prefix, then a prefix `w` of its suffix `t`, then the
      rest of `t`. */
  lemma Cut3(s: string, t: string, w: string)
    requires |t| <= |s| && t == s[|s| - |t|..]
    requires |w| <= |t| && w == t[..|w|]
    ensures s == s[..|s| - |t|] + w + t[|w|..]
  {
    var x := |s| - |t|;
    assert s == s[..x] + s[x..];
    assert t == t[..|w|] + t[|w|..];
  }

  /** One step of the tokenizer: past the leading white space, the first
      token is the word there, and the rest is tokenized alike. */
  lemma TokensStep(s: string)
    requires SkipSpace(s) != []
    ensures var t := SkipSpace(s); var w := Word(t);
      Tokens(s) == [w] + Tokens(t[|w|..])
  {
  }

  lemma GapsStep(s: string)
    requires SkipSpace(s) != []
    ensures var t := SkipSpace(s); var w := Word(t);
      Gaps(s) == [s[..|s| - |t|]] + Gaps(t[|w|..])
  {
  }

  lemma LeadIsSpace(s: string)
    ensures AllAsciiSpace(s[..|s| - |SkipSpace(s)|])
  {
  }

  /** What follows a word is empty or starts with white space. */
  lemma AfterWord(t: string)
    ensures var w := Word(t); t[|w|..] == [] || IsAsciiSpace(t[|w|])
  {
  }

  /** A string that starts with white space has a non-empty leading run. */
  lemma LeadingGap(s: string)
    requires s != [] && IsAsciiSpace(s[0])
    ensures Gaps(s)[0] != []
  {
  }

  /** A run of white space and a word in front of a woven string give a
      woven string with one more gap and one more token. */
  lemma WeaveStep(lead: string, w: string, gs: seq<string>, ts: seq<string>)
    requires |gs| == |ts| + 1
    requires AllAsciiSpace(lead) && forall k :: 0 <= k < |gs| ==> AllAsciiSpace(gs[k])
    requires forall k :: 0 < k < |gs| - 1 ==> gs[k] != []
    requires |ts| > 0 ==> gs[0] != []
    ensures var gs', ts' := [lead] + gs, [w] + ts;
      && |gs'| == |ts'| + 1
      && Weave(gs', ts') == lead + w + Weave(gs, ts)
      && (forall k :: 0 <= k < |gs'| ==> AllAsciiSpace(gs'[k]))
      && (forall k :: 0 < k < |gs'| - 1 ==> gs'[k] != [])
  {
    var gs', ts' := [lead] + gs, [w] + ts;
    assert gs'[1..] == gs && ts'[1..] == ts;
    forall k | 0 < k < |gs'| ensures gs'[k] == gs[k - 1] {
    }
  }

  /** `s` is its tokens woven with runs of white space: the runs before the
      first and after the last token may be empty, every run between two
      tokens is not. Together with `TokensAreWords` this pins the tokens
      down as the maximal white-space-free stretches of `s`, in order. */
  lemma {:induction false} TokensSplit(s: string)
    ensures |Gaps(s)| == |Tokens(s)| + 1
    ensures s == Weave(Gaps(s), Tokens(s))
    ensures forall k :: 0 <= k < |Gaps(s)| ==> AllAsciiSpace(Gaps(s)[k])
    ensures forall k :: 0 < k < |Gaps(s)| - 1 ==> Gaps(s)[k] != []
    decreases |s|
  {
    var t := SkipSpace(s);
    LeadIsSpace(s);
    if t == [] {
      assert s[..|s|] == s;
    } else {
      var lead, w := s[..|s| - |t|], Word(t);
      var rest := t[|w|..];
      TokensStep(s);
      GapsStep(s);
      AfterWord(t);
      Cut3(s, t, w);
      TokensSplit(rest);
      if Tokens(rest) != [] {
        LeadingGap(rest);
      }
      WeaveStep(lead, w, Gaps(rest), Tokens(rest));
    }
  }

  /** Removes repeated entries, keeping the first occurrence of each. */
  function Dedup(xs: seq<string>): (r: seq<string>)
    ensures forall x :: x in r <==> x in xs
    ensures forall i, j :: 0 <= i < j < |r| ==> r[i] != r[j]
  {
    if |xs| == 0 then []
    else
      var d := Dedup(xs[..|xs| - 1]);
      var x := xs[|xs| - 1];
      assert xs == xs[..|xs| - 1] + [x];
      if x in d then d else d + [x]
  }

  /** Where `x` first occurs in `xs`. */
  function FirstIndex(xs: seq<string>, x: string): (k: nat)
    requires x in xs
    ensures k < |xs| && xs[k] == x
    ensures forall j :: 0 <= j < k ==> xs[j] != x
  {
    if xs[0] == x then 0 else 1 + FirstIndex(xs[1..], x)
  }

  /** An entry of a prefix first occurs where it first occurs in the prefix. */
  lemma FirstIndexPrefix(xs: seq<string>, m: nat, y: string)
    requires m <= |xs| && y in xs[..m]
    ensures y in xs && FirstIndex(xs, y) == FirstIndex(xs[..m], y)
  {
    var k := FirstIndex(xs[..m], y);
    assert xs[k] == y;
  }

  /** Entries of `xs` without its last element keep their first
      positions in `xs`, so their first-occurrence order carries over. */
  lemma FirstOrderKeep(xs: seq<string>, d: seq<string>)
    requires |xs| > 0
    requires forall k :: 0 <= k < |d| ==> d[k] in xs[..|xs| - 1]
    requires forall i, j :: 0 <= i < j < |d| ==>
      FirstIndex(xs[..|xs| - 1], d[i]) < FirstIndex(xs[..|xs| - 1], d[j])
    ensures forall k :: 0 <= k < |d| ==> FirstIndex(xs, d[k]) < |xs| - 1
    ensures forall i, j :: 0 <= i < j < |d| ==> FirstIndex(xs, d[i]) < FirstIndex(xs, d[j])
  {
    forall k | 0 <= k < |d| ensures FirstIndex(xs, d[k]) == FirstIndex(xs[..|xs| - 1], d[k]) {
      FirstIndexPrefix(xs, |xs| - 1, d[k]);
    }
  }

  /** A last element that does not occur before first occurs last, after
      every entry of the rest. */
  lemma FirstOrderAppend(xs: seq<string>, d: seq<string>)
    requires |xs| > 0 && xs[|xs| - 1] !in xs[..|xs| - 1]
    requires forall k :: 0 <= k < |d| ==> d[k] in xs
    requires forall k :: 0 <= k < |d| ==> FirstIndex(xs, d[k]) < |xs| - 1
    requires forall i, j :: 0 <= i < j < |d| ==> FirstIndex(xs, d[i]) < FirstIndex(xs, d[j])
    ensures var r := d + [xs[|xs| - 1]];
      forall i, j :: 0 <= i < j < |r| ==> FirstIndex(xs, r[i]) < FirstIndex(xs, r[j])
  {
    var p, x := xs[..|xs| - 1], xs[|xs| - 1];
    assert forall k :: 0 <= k < |p| ==> xs[k] == p[k];
    assert FirstIndex(xs, x) == |xs| - 1;
    var r := d + [x];
    forall i, j | 0 <= i < j < |r| ensures FirstIndex(xs, r[i]) < FirstIndex(xs, r[j]) {
      assert r[i] == d[i];
      if j < |d| {
        assert r[j] == d[j];
      } else {
        assert r[j] == x;
      }
    }
  }

  /** `Dedup` lists the distinct entries in the order of their first
      occurrence. */
  lemma {:induction false} DedupKeepsFirstOrder(xs: seq<string>)
    ensures forall i, j :: 0 <= i < j < |Dedup(xs)| ==> FirstIndex(xs, Dedup(xs)[i]) < FirstIndex(xs, Dedup(xs)[j])
  {
    if |xs| > 0 {
      var p, x := xs[..|xs| - 1], xs[|xs| - 1];
      var d := Dedup(p);
      DedupKeepsFirstOrder(p);
      DedupEntriesFrom(p);
      FirstOrderKeep(xs, d);
      if x !in d {
        assert forall k :: 0 <= k < |d| ==> d[k] in xs by {
          forall k | 0 <= k < |d| ensures d[k] in xs {
            assert xs[FirstIndex(xs, d[k])] == d[k];
          }
        }
        FirstOrderAppend(xs, d);
        assert Dedup(xs) == d + [x];
      } else {
        assert Dedup(xs) == d;
      }
    }
  }

  /** Each entry of `Dedup(xs)` is an entry of `xs`. */
  lemma DedupEntriesFrom(xs: seq<string>)
    ensures forall k :: 0 <= k < |Dedup(xs)| ==> Dedup(xs)[k] in xs
  {
    var d := Dedup(xs);
    forall k | 0 <= k < |d| ensures d[k] in xs {
      assert d[k] in d;
    }
  }

  /** The whitespace tokens of a `" > "`-joined chain: each part followed by a
      `">"` combinator token, except the last. */
  function Interleave(parts: seq<string>): (r: seq<string>)
    ensures |parts| > 0 ==> |r| == 2 * |parts| - 1
  {
    if |parts| <= 1 then parts
    else [parts[0], ">"] + Interleave(parts[1..])
  }

  lemma {:induction false} TokensAllSpace(s: string)
    ensures Tokens(s) == [] <==> forall k :: 0 <= k < |s| ==> IsAsciiSpace(s[k])
  {
    var t := SkipSpace(s);
    if t != [] {
      assert !IsAsciiSpace(s[|s| - |t|]);
    }
  }

  lemma {:induction false} SkipSpaceOfLeadingSpace(rest: string)
    ensures SkipSpace(" " + rest) == SkipSpace(rest)
  {
    assert (" " + rest)[1..] == rest;
  }

  lemma {:induction false} WordOfSpaced(w: string, rest: string)
    requires NoAsciiSpace(w)
    ensures Word(w + " " + rest) == w
    decreases |w|
  {
    if |w| > 0 {
      assert (w + " " + rest)[1..] == w[1..] + " " + rest;
      WordOfSpaced(w[1..], rest);
      assert [w[0]] + w[1..] == w;
    }
  }

  lemma {:induction false} WordOfWord(w: string)
    requires NoAsciiSpace(w)
    ensures Word(w) == w
    decreases |w|
  {
    if |w| > 0 {
      WordOfWord(w[1..]);
      assert [w[0]] + w[1..] == w;
    }
  }

  /** A space-free word followed by a space is the first token. */
  lemma {:induction false} TokensCons(w: string, rest: string)
    requires w != [] && NoAsciiSpace(w)
    ensures Tokens(w + " " + rest) == [w] + Tokens(rest)
  {
    var s := w + " " + rest;
    assert SkipSpace(s) == s by { assert !IsAsciiSpace(s[0]); }
    WordOfSpaced(w, rest);
    assert s[|w|..] == " " + rest;
    SkipSpaceOfLeadingSpace(rest);
    assert Tokens(" " + rest) == Tokens(rest);
  }

  lemma {:induction false} TokensSingle(w: string)
    requires w != [] && NoAsciiSpace(w)
    ensures Tokens(w) == [w]
  {
    assert !IsAsciiSpace(w[0]);
    WordOfWord(w);
    assert w[|w|..] == [];
  }

  lemma JoinChainCons(parts: seq<string>)
    requires |parts| >= 2
    ensures Join(" > ", parts) == parts[0] + " " + (">" + " " + Join(" > ", parts[1..]))
  {
  }

  /** A chain part followed by `" > "` contributes itself and a `">"` token. */
  lemma ChainStep(head: string, rest: string)
    requires head != [] && NoAsciiSpace(head)
    ensures Tokens(head + " " + (">" + " " + rest)) == [head, ">"] + Tokens(rest)
  {
    TokensCons(head, ">" + " " + rest);
    CombinatorStep(rest);
    ConsPair(head, ">", Tokens(rest));
  }

  lemma CombinatorStep(rest: string)
    ensures Tokens(">" + " " + rest) == [">"] + Tokens(rest)
  {
    assert NoAsciiSpace(">") by { assert !IsAsciiSpace('>'); }
    TokensCons(">", rest);
  }

  lemma ConsPair(a: string, b: string, t: seq<string>)
    ensures [a] + ([b] + t) == [a, b] + t
  {
  }

  /** Splitting a `" > "`-joined chain of space-free, non-empty parts on white
      space gives back the parts with a `">"` token between neighbours. */
  lemma {:induction false} TokensOfChain(parts: seq<string>)
    requires forall k :: 0 <= k < |parts| ==> parts[k] != [] && NoAsciiSpace(parts[k])
    ensures Tokens(Join(" > ", parts)) == Interleave(parts)
    decreases |parts|
  {
    if |parts| == 0 {
      assert Tokens("") == [];
    } else if |parts| == 1 {
      TokensSingle(parts[0]);
    } else {
      JoinChainCons(parts);
      ChainStep(parts[0], Join(" > ", parts[1..]));
      TokensOfChain(parts[1..]);
    }
  }
}
